=== FILE: README.md ===
# timesheet — a Dafny model of the weekly work-hours scraper

`timesheet` fetches a user's Google Maps location timeline one day at a time
as KML and keeps the segments whose name starts with `Work`. For each day it
sums their durations and takes a half-hour break off any day over six hours.
It then reports the five working days of a week with a running total,
rounded down to quarter hours. A browser extension holds a JavaScript twin
of the query encoder.

This project models that core in Dafny and proves properties of it:

| module (file) | models |
|---|---|
| `Errors` (errors.dfy) | the ways a fetch can fail, and `Result`/`Option` |
| `Calendar` (calendar.dfy) | Python's proleptic Gregorian `date`: `toordinal`, `weekday`, `± timedelta(days=n)` |
| `QueryEncoder` (query_encoder.dfy) | `rewrite_daterange_string`, its grammar and a reader for it, and the `authuser=0&pb=` query of `get_timeline` |
| `Extension` (extension.dfy) | `rewriteDateString` and `addDays` of extension/background.js |
| `Timestamps` (timestamps.dfy) | `parse_date_str`: `Z` rewritten to `+00:00` before the ISO-8601 reader |
| `Placemarks` (placemarks.dfy) | the per-placemark extraction loop of `get_timeline` |
| `ResponseCache` (response_cache.dfy) | the cache and status logic of `make_request` |
| `Rounding` (rounding.dfy) | `round_to` |
| `Aggregator` (aggregator.dfy) | `get_timeline` and `get_timeline_for_week`: week selection, the `Work` filter, day sums, the break rule, the cumulative total |

Modelling choices:
- Instants are integer epoch milliseconds.
- Hours are exact Dafny `real`s, `(end - start) / 3600000`.
- The HTTP transport, the markup reader and `datetime.fromisoformat` are function parameters, collected in `Aggregator.Config`.
- The cache directory is a `map` from prepared URL to body. It is threaded through the calls, and each call returns the new map.

Two behaviours of the code that a reader might not expect, both kept as written:
- `make_request` rejects a status only when `code < 200 or code > 400`, so status 400 is accepted (`ResponseCache.Accepted`).
- The markup reader (BeautifulSoup with `lxml-xml`) does not raise on malformed text. Reading a document is therefore a total function `parseDocument`. A malformed answer yields whatever placemarks the reader recovers, possibly none.

## Model

| member | source | states |
|---|---|---|
| QueryEncoder.DecimalString | main.py:36-38 | `str(n)` for the numbers in the f-string: digits only, no leading zero except for 0; `DecimalStringValue` and `ReadNumberCanonical` make it the one spelling of `n` |
| QueryEncoder.DecimalStringValue | main.py:36-38 | reading the digits `str(n)` writes gives back `n` |
| QueryEncoder.DecodeEncodeTriple | main.py:36-38 | each endpoint block `!1i<y>!2i<m>!3i<d>` is read back to exactly the three numbers written, leaving what follows it |
| QueryEncoder.EncodeFields | main.py:35-38 | the `pb` grammar for six numbers; its meaning is stated by `DecodeEncodeFields` (read back exactly) and `DecodeFieldsCanonical` (the only spelling) |
| QueryEncoder.DecodeEncodeFields | main.py:35-38 | the `1m8!1m3!1i…!2i…!3i…!2m3!1i…!2i…!3i…` grammar is read back to exactly the six numbers written, so the encoding loses nothing |
| QueryEncoder.DateFields | main.py:36-37 | the month fields put on the wire are zero-based, always within 0..11 |
| QueryEncoder.ReadNumberCanonical | main.py:36-38 | a number the reader accepts is spelled exactly as `str` writes it (no leading zeros) and is followed by a non-digit |
| QueryEncoder.PaddingRejected | main.py:36-38 | a zero-padded number such as `06` is not in the grammar, while `0` is |
| QueryEncoder.DecodeTripleCanonical | main.py:36-38 | a string read as one endpoint block is exactly that block's encoding followed by the rest |
| QueryEncoder.DecodeFieldsCanonical | main.py:35-38 | a string decodes to a field list exactly when it is that list's encoding: the grammar has one spelling per field list |
| QueryEncoder.RewriteDaterangeString | main.py:32-39 | the query string parses in the grammar, its month fields lie in 0..11, and it denotes exactly the (from, to) dates given |
| QueryEncoder.RewriteDaterangeStringUnique | main.py:32-39 | a string denotes the (from, to) pair in the grammar exactly when it is the query string for that pair |
| QueryEncoder.RewriteDaterangeStringInjective | main.py:32-39 | two date pairs produce the same query string exactly when they are the same pair |
| QueryEncoder.TimelineParams | main.py:116-118 | the day query starts with `authuser=0&pb=` and encodes the span from the day to the next calendar day |
| Extension.RewriteDateString | extension/background.js:17-19 | the extension's string is the same grammar with the getters' values, month index unadjusted, from-block then to-block |
| Extension.RewriteDateStringUnique | extension/background.js:17-19 | a string decodes to the six getter values exactly when it is the extension's string for them |
| Extension.RewriteDateStringMatchesScript | extension/background.js:18 | for the same calendar dates the extension's zero-based `getMonth()` string equals the script's `month - 1` string |
| Extension.AddDays | extension/background.js:21-24 | the result is a valid date exactly one calendar day later, with a month index in 0..11 |
| Extension.AddDaysIgnoresCount | extension/background.js:21-24 | `n` is ignored: any two counts give the same result, always one day ahead |
| Timestamps.NormalizeUtc | main.py:104 | no `Z` survives the rewrite, the length grows by five per `Z`, and text without `Z` is passed through unchanged |
| Timestamps.NormalizeUtcAppend | main.py:104 | the rewrite acts on every occurrence independently: rewriting a concatenation is concatenating the rewrites |
| Timestamps.NormalizeUtcInvertible | main.py:104 | on text without `+` the rewrite is undone by turning each `+00:00` back into `Z`, so no information is lost |
| Timestamps.NormalizeUtcExample | main.py:102-104 | the documented example `2019-11-26T01:35:36.088Z` reaches the reader as `…088+00:00` |
| Timestamps.ParseDateStr | main.py:101-104 | the ISO-8601 reader sees the timestamp with every `Z` rewritten to `+00:00`; a timestamp without `Z` is handed over as is |
| Timestamps.ParseDateStrExample | main.py:102 | the docstring's `2019-11-26T01:35:36.088Z` reaches the reader as `2019-11-26T01:35:36.088+00:00` |
| Rounding.RoundTo | main.py:107-110 | `round_to`: the floor of `num * frac` divided by `frac`, paired with `num`; its meaning is stated by `RoundToBounds`, `RoundToGreatest`, `RoundToIdempotent` and `RoundToMonotone` |
| Rounding.RoundToBounds | main.py:107-110 | the second component is the input unchanged; the first is at most the input, within one `1/frac` step of it, and an integer multiple of `1/frac` |
| Rounding.RoundToGreatest | main.py:107-110 | the rounded value is the greatest multiple of `1/frac` not above the input |
| Rounding.RoundToIdempotent | main.py:107-110 | rounding an already rounded value changes nothing |
| Rounding.RoundToMonotone | main.py:107-110 | rounding preserves order |
| Rounding.QuarterHourExamples | main.py:110 | quarter-hour floors: 6.24 → 6.0, 6.26 → 6.25, 8.5 → 8.5, and −0.1 → −0.25 (toward minus infinity) |
| Placemarks.ReadInstant | main.py:125 | a `begin`/`end` timestamp is read exactly when its text is present and the reader accepts it, and the value is the reader's |
| Placemarks.PlacemarkInterval | main.py:123-126 | a point placemark yields a triple exactly when name, `TimeSpan`, `begin` and `end` are all readable; the triple is the name text, the instant read from `begin` and the instant read from `end`; otherwise the first missing part in the order name, `TimeSpan`, `begin`, `end` decides the error, so an unreadable `begin` is reported even when `end` is unreadable too |
| Placemarks.PointPlacemarks | main.py:121-122 | only placemarks with a `Point` child are kept, and every such placemark is kept |
| Placemarks.PointPlacemarksSingle | main.py:121-122 | a single placemark is kept exactly when it has a `Point` child |
| Placemarks.PointPlacemarksAppend | main.py:121-122 | the filter distributes over concatenation, so the kept placemarks stay in document order |
| Placemarks.Intervals | main.py:121-126 | a successful extraction yields one triple per point placemark |
| Placemarks.IntervalsSucceed | main.py:121-126 | extraction succeeds exactly when every point placemark yields a triple |
| Placemarks.IntervalsInOrder | main.py:121-126 | the i-th triple is the one the i-th point placemark yields, so document order is kept |
| Placemarks.IntervalsFirstFailure | main.py:121-126 | a failed extraction reports the error of the first point placemark that fails |
| Placemarks.IntervalsSkipNonPoint | main.py:122 | a placemark without `Point` neither yields nor fails |
| ResponseCache.PreparedUrl | main.py:81-82 | the request target: the timeline URL with the query string appended; it is the cache key `MakeRequest` stores and reads under (see that row and `Aggregator.GetTimeline`) |
| ResponseCache.Accepted | main.py:91 | the status band let through: 200 to 400 inclusive, edges fixed by `AcceptedExamples`; `MakeRequest` fails with the status exactly outside it |
| ResponseCache.AcceptedExamples | main.py:91 | 200, 302 and 400 are accepted; 199, 401, 404 and 500 are rejected, so 400 itself passes |
| ResponseCache.MakeRequest | main.py:77-98 | a hit returns the stored body without sending; otherwise the request is sent exactly once and the status decides; a rejected status or caching off writes nothing; entries are never overwritten and only the requested key can be added, holding the body returned |
| ResponseCache.RepeatIsHit | main.py:83-98 | after a successful cached call, the same call is a hit with identical content and no further change |
| ResponseCache.CacheTransparent | main.py:83-98 | with a cache that agrees with the transport, caching on and caching off give the same result, and the cache keeps agreeing |
| ResponseCache.CacheOffIgnoresCache | main.py:83-95 | with caching off the cache is neither read nor written: any two caches give the same result and the cache is returned unchanged |
| Calendar.NextDay | main.py:118 | the next day is a valid date whose ordinal is one more, across month, year and leap-day boundaries |
| Calendar.PrevDay | main.py:133 | the day before is valid, one ordinal less, and `NextDay` of it is the original day |
| Calendar.AddDays | main.py:134 | `d + timedelta(days=n)` is valid and exactly `n` ordinals later |
| Calendar.SubDays | main.py:133 | `d - timedelta(days=n)` is valid and exactly `n` ordinals earlier |
| Calendar.AddDaysSubDays | main.py:133-134 | stepping back `n` days and forward `n` days returns to the same date |
| Calendar.Ordinal | main.py:133-134 | `date.toordinal()`: days since 0001-01-01 counted from 1; `DaysBeforeYearClosedForm` ties it to the Gregorian closed form and `OrdinalInjective` makes it a faithful numbering |
| Calendar.Weekday | main.py:133 | `date.weekday()`, Monday 0 to Sunday 6; `WeekdayNextDay` and `WeekdayAddDays` state how it moves with the date |
| Calendar.OrdinalInjective | main.py:133-134 | two valid dates have the same ordinal exactly when they are the same date |
| Calendar.WeekdayNextDay | main.py:133 | the weekday of the next day is the weekday plus one, modulo 7 |
| Calendar.WeekdayAddDays | main.py:134 | `n` days later the weekday has moved on by `n` modulo 7 |
| Calendar.DaysBeforeYearClosedForm | main.py:133 | counting days year by year agrees with the 365·y + y/4 − y/100 + y/400 closed form of the Gregorian calendar |
| Calendar.WeekStart | main.py:133 | `target - timedelta(days=target.weekday())` is a valid Monday from which the target is `weekday` days on |
| Aggregator.ReportDays | main.py:133-134 | five days, Monday to Friday in order, each the next day of the one before, starting at the target's week start; weekends are never reported |
| Aggregator.TargetInReportedWeek | main.py:133-134 | the target lies within six days after the first reported day, and is itself reported exactly when it is a weekday |
| Aggregator.ReportDaysExample | main.py:133-134 | the target Wednesday 2025-01-08 reports Monday 6 to Friday 10 January 2025 |
| Aggregator.GetTimeline | main.py:113-126 | overflow past year 9999 fails with the cache untouched; with caching on and the day's URL stored, the result is the extraction of the stored body and the cache is unchanged; otherwise the day's URL is sent, an accepted body is extracted (and stored when caching) and a rejected status fails with that status; stored entries are never changed |
| Aggregator.GetTimelineCacheOff | main.py:113-126 | with caching off a day's result does not depend on the cache contents |
| Aggregator.GetTimelineCacheTransparent | main.py:113-126 | a cache that agrees with the transport does not change a day's result, and still agrees afterwards |
| Aggregator.WorkIntervals | main.py:143-144 | exactly the intervals named with the prefix `Work` are kept |
| Aggregator.WorkIntervalsSingle | main.py:143-144 | a single interval is kept exactly when its name starts with `Work` |
| Aggregator.WorkIntervalsAppend | main.py:143-144 | the filter distributes over concatenation, so kept intervals stay in order |
| Aggregator.IsWork | main.py:144 | `name.startswith('Work')`; pinned down by `IsWorkExamples` and used as the filter of `WorkIntervals` |
| Aggregator.Hours | main.py:146 | an interval's duration in exact hours, `(end - start) / 3600000`; `EntriesAreWorkIntervals` and `WorkHoursIsFilteredTotal` state how it enters the report |
| Aggregator.IsWorkExamples | main.py:144 | the prefix test is exact and case-sensitive: `Working…` counts, `work`, `WORK`, `Homework` and `Wor` do not |
| Aggregator.WorkHours | main.py:142-148 | the running `tot` of one day; `WorkHoursIsFilteredTotal` equates it with the sum over `WorkIntervals`, `WorkHoursAppend` and `WorkHoursPermutation` with order independence |
| Aggregator.Entries | main.py:143-149 | the printed interval lines of one day; `EntriesAreWorkIntervals` states one entry per Work interval with its exact and rounded hours |
| Aggregator.BreakAdjusted | main.py:150-151 | the break rule `if tot > 6: tot -= sub`; `DaySummaryTotal` states it on the day's total |
| Aggregator.DaySummary | main.py:142-153 | the reference day report: entries, break-adjusted exact total and its quarter-hour floor; `DaySummaryTotal`, `DaySummaryRounded` and `SummarizeDay` state its content |
| Aggregator.WorkHoursIsFilteredTotal | main.py:142-148 | the accumulated day total equals the plain sum of the exact durations of the Work intervals alone |
| Aggregator.WorkHoursAppend | main.py:142-148 | the day total of a concatenation of interval lists is the sum of their day totals |
| Aggregator.WorkHoursPermutation | main.py:142-148 | listing the same intervals in another order gives the same day total |
| Aggregator.EntryOf | main.py:146-149 | one printed interval line: the interval with `round_to` of its hours; `EntriesAreWorkIntervals` states the values each Work interval gets |
| Aggregator.EntriesAreWorkIntervals | main.py:143-149 | one printed entry per Work interval, in order, each carrying that interval's exact hours and those hours rounded down to the quarter hour |
| Aggregator.DaySummaryTotal | main.py:142-151 | the break is taken off exactly once and only when the Work total is strictly over 6; a total of exactly 6 is kept as it is |
| Aggregator.DaySummaryRounded | main.py:153 | the displayed day total is the quarter-hour floor of the break-adjusted exact total |
| Aggregator.NoWorkNoHours | main.py:142-148 | without Work intervals the day total is 0 and there are no entries |
| Aggregator.NoWorkDay | main.py:142-153 | a day with no Work intervals reports no entries, 0 exact and 0 rounded, with no break taken |
| Aggregator.DaySummaryExample | main.py:142-153 | an 8.5-hour Work segment plus a non-Work segment reports that one entry (8.5) and a day total of 8.0 after the break |
| Aggregator.SummarizeDay | main.py:142-153 | the inner loop builds exactly the reference day report: entries of the Work intervals, the break-adjusted total and its rounding |
| Aggregator.SumExact | main.py:138-152 | `cum`: the sum of the days' adjusted totals; `SumExactAppend` states the `cum += tot` step |
| Aggregator.Summaries | main.py:139-153 | the per-day reports in day order; `SummariesPointwise` states that the i-th is the i-th day's summary |
| Aggregator.WeekFromIntervals | main.py:138-157 | the reference week: the day reports, `cum` and its quarter-hour floor; `WeekTotals` states its content, and `AccumulateDays` and `GetTimelineForWeek` are proved against it |
| Aggregator.SumExactAppend | main.py:152 | adding a day adds its break-adjusted total to the running sum |
| Aggregator.SummariesPointwise | main.py:139-153 | the i-th day report summarises the i-th day's intervals |
| Aggregator.WeekTotals | main.py:138-157 | the week has one report per day in order; the cumulative total is the sum of the break-adjusted day totals; the displayed value is its quarter-hour floor |
| Aggregator.FetchDays | main.py:139-141 | fetching the days in order yields one interval list per day or the first failure; stored cache entries are never changed; caching off leaves the cache alone |
| Aggregator.FetchDaysStep | main.py:139-141 | a successful prefix is extended by exactly the next day's fetch, against the cache the prefix left |
| Aggregator.FetchDaysFailureStands | main.py:139-141 | once a day fails no later day is fetched and that failure is the week's |
| Aggregator.FetchDaysCacheOff | main.py:139-141 | with caching off the week's fetches do not depend on the cache contents |
| Aggregator.FetchDaysCacheTransparent | main.py:139-141 | with a cache that agrees with the transport the week's fetches give the same result as without caching |
| Aggregator.DayStep | main.py:139-152 | one successful day extends the fetched prefix, the list of day reports and the running total together |
| Aggregator.AccumulateDays | main.py:138-158 | the day loop's result is the first failure, or the reference week built from every day's intervals, and the cache is the one the fetches leave |
| Aggregator.GetTimelineForWeek | main.py:129-158 | the week of the target: its five working days fetched in order, then summarised and totalled as the reference week, or the first failure |

## Left out

- `set_cookies` (main.py:42-61): reads Chrome's cookie database and decrypts it with Windows DPAPI. This is platform I/O with nothing to prove.
- The HTTP session, `prepare_request` and `send` become the function `send: string -> Response` over the prepared URL.
- Prepared URL: the URL is written as the timeline URL, `?` and the query string as passed. The query string holds only characters `requests` leaves unquoted, so no re-quoting is modelled.
- Cache key: the cache is keyed by the prepared URL itself, not by `urllib.parse.quote(url, '')`. The quoting is one-to-one, so the same entries are identified.
- The files under `cache/` are a map. File-system errors are not modelled.
- ResponseCache.RepeatIsHit: the stored body comes back unchanged. In the source the cache file is read in text mode (main.py:87), whose universal-newline translation turns `\r\n` and `\r` into `\n`, so the source returns identical content only for bodies without `\r`.
- Cache writes: `open(path, 'w')` (main.py:96-97) encodes with the platform's default encoding, and the script only runs on Windows (main.py:11). A body with a character that encoding cannot represent makes the write raise after an empty file was created; later cached runs then read the empty body as a hit and report no hours for that day. The model's write always stores the body.
- `res.content.decode()`: the body is a string. A non-UTF-8 body, which raises in the source, is not modelled.
- main.py:92: with caching off, a rejected status raises `NameError` (the message references an undefined `url`) instead of the intended exception. Both abort the run, and the model reports `FetchFailed(status)` in either case.
- BeautifulSoup/lxml parsing is the parameter `parseDocument`. A document is the sequence of its placemarks, each reduced to the point flag, the name text, and the `begin`/`end` texts of its `TimeSpan`.
- `datetime.fromisoformat` is the parameter `fromIsoFormat`, yielding epoch milliseconds or nothing. A naive timestamp subtracted from an aware one (`end - start`, main.py:146) (a `TypeError` in the source) is outside the model.
- Error kinds: the exceptions the source raises for a missing child or text (`AttributeError` on `None`) are distinguished as error kinds. A name element whose text is not plain is treated like a missing name, although the source raises on it one step later (at `name.startswith`). Either way the whole week fails.
- `get_timeline` is a generator, so intervals before a failing placemark are printed before the failure. Printing is not modelled; the week's outcome is a failure either way.
- `valid_date` (main.py:18-29), argparse (main.py:67-74) and the `__main__` block (main.py:161-165), including the default target "today minus seven days": these are CLI wiring and the clock.
- `LOCALTZ`, `astimezone`, `strftime` and every `print`: display only. The model returns the values printed — each entry's rounded and exact hours, each day's and the week's totals — as `DayReport`/`WeekReport` values instead of text.
- Floating point: hours are exact rationals (`real`) rather than IEEE doubles, so float rounding error (for example in `exact:.2f`, or a `tot` a hair above 6) is not modelled.
- Rounding.RoundTo: `frac` is required to be positive. `frac = 0` raises `ZeroDivisionError` in the source, and only the default 4 is ever passed.
- Interval order: an interval with `end < start` is not rejected by the source, and the model keeps its negative duration as the source does.
- Dates: `Valid` admits every year from 1 on. The year-9999 limit of Python's `date` is modelled only where `get_timeline` adds a day (`DateOverflow`). Targets that Python cannot represent at all (year 10000 and later) are outside the source's domain. For them the model still fetches the week's days in order and fails with `DateOverflow` at the first day whose next day passes 9999-12-31: for 10000-01-01 and 10000-01-02 the week starts on 9999-12-27, four days are fetched and the fifth fails; for later targets the first day already fails.
- extension/background.js: the `chrome.runtime` listeners (lines 3-15) and `fetchTimeline` (lines 27-36) are left out. The latter does not parse: its body is empty, followed by stray top-level statements and an unmatched `}`.
- Extension.AddDays: JavaScript's local-time `Date` (time of day, daylight-saving shifts, years before 1) is reduced to its calendar date.
- Extension.RewriteDateString: `ValidJs` excludes years before 1. `getFullYear()` can return 0 or a negative year, which the template literal writes with a minus sign; that spelling is not part of the modelled grammar. `new Date(date)` copies before `setDate`, so the argument is never changed; in the model every value is immutable, so this holds by construction.

=== FILE: aggregator.dfy ===
/** `get_timeline` and `get_timeline_for_week` (main.py): fetch each working
    day of the target's Monday-based week, keep the intervals named `Work…`,
    sum their exact durations, subtract the break from days over six hours,
    and accumulate the week, rounding to quarter hours for display. */
module Aggregator {
  import opened Errors
  import opened Calendar
  import QueryEncoder
  import ResponseCache
  import Placemarks
  import Rounding

  const WorkPrefix := "Work"
  const BreakThreshold: real := 6.0
  const DefaultBreak: real := 0.5
  const MsPerHour := 3600000
  /** `round_to`'s default: quarters of an hour. */
  const Quarters := 4
  const ReportedDays := 5

  /** Everything outside the core that the week computation uses: the cache
      flag, the transport, the markup reader (BeautifulSoup) and the
      ISO-8601 reader (`datetime.fromisoformat`, yielding epoch milliseconds). */
  datatype Config = Config(
    useCache: bool,
    send: string -> ResponseCache.Response,
    parseDocument: string -> seq<Placemarks.Placemark>,
    fromIsoFormat: string -> Option<int>)

  /** A day's intervals, or why they could not be had, and the cache afterwards. */
  datatype DayFetch = DayFetch(result: Result<seq<Placemarks.Interval>>, cache: ResponseCache.Cache)

  /** `get_timeline(day)`: request the span from `day` to the next day and
      extract the point placemarks' intervals from the answer. */
  function GetTimeline(day: Date, cfg: Config, cache: ResponseCache.Cache): (o: DayFetch)
    requires Valid(day)
    ensures NextDay(day).year > MaxYear ==> o == DayFetch(Failure(DateOverflow), cache)
    ensures forall k :: k in cache ==> k in o.cache && o.cache[k] == cache[k]
    ensures !cfg.useCache ==> o.cache == cache
    // a stored answer for the day's URL is read instead of fetching
    ensures var url := ResponseCache.PreparedUrl(QueryEncoder.TimelineParams(day));
      NextDay(day).year <= MaxYear && cfg.useCache && url in cache ==>
        o == DayFetch(Placemarks.Intervals(cfg.parseDocument(cache[url]), cfg.fromIsoFormat), cache)
    // otherwise the day's URL is fetched: an accepted answer is parsed (and
    // stored when caching), a rejected one fails with its status
    ensures var url := ResponseCache.PreparedUrl(QueryEncoder.TimelineParams(day));
      var res := cfg.send(url);
      NextDay(day).year <= MaxYear && !(cfg.useCache && url in cache) ==>
        && (ResponseCache.Accepted(res.status) ==>
              o.result == Placemarks.Intervals(cfg.parseDocument(res.body), cfg.fromIsoFormat))
        && (!ResponseCache.Accepted(res.status) ==> o == DayFetch(Failure(FetchFailed(res.status)), cache))
        && (ResponseCache.Accepted(res.status) && cfg.useCache ==> o.cache == cache[url := res.body])
    ensures o.result.Success? && cfg.useCache ==>
      var url := ResponseCache.PreparedUrl(QueryEncoder.TimelineParams(day));
      url in o.cache && o.result == Placemarks.Intervals(cfg.parseDocument(o.cache[url]), cfg.fromIsoFormat)
  {
    if NextDay(day).year > MaxYear then DayFetch(Failure(DateOverflow), cache)
    else
      var req := ResponseCache.MakeRequest(QueryEncoder.TimelineParams(day), cfg.useCache, cache, cfg.send);
      match req.result
      case Failure(e) => DayFetch(Failure(e), req.cache)
      case Success(content) =>
        DayFetch(Placemarks.Intervals(cfg.parseDocument(content), cfg.fromIsoFormat), req.cache)
  }

  /** `name.startswith('Work')`: exact, case-sensitive prefix. */
  predicate IsWork(name: string) {
    |WorkPrefix| <= |name| && name[..|WorkPrefix|] == WorkPrefix
  }

  /** `(end - start) / timedelta(hours=1)`, exactly. */
  function Hours(iv: Placemarks.Interval): real {
    (iv.end - iv.start) as real / MsPerHour as real
  }

  /** Sum of the durations of all intervals. */
  function TotalHours(ivs: seq<Placemarks.Interval>): real {
    if |ivs| == 0 then 0.0 else TotalHours(ivs[..|ivs| - 1]) + Hours(ivs[|ivs| - 1])
  }

  /** The intervals whose name starts with `Work`, in order. */
  function WorkIntervals(ivs: seq<Placemarks.Interval>): (r: seq<Placemarks.Interval>)
    ensures |r| <= |ivs|
    ensures forall i :: 0 <= i < |r| ==> IsWork(r[i].name) && r[i] in ivs
    ensures forall i :: 0 <= i < |ivs| && IsWork(ivs[i].name) ==> ivs[i] in r
  {
    if |ivs| == 0 then []
    else
      var last := ivs[|ivs| - 1];
      var prefix := WorkIntervals(ivs[..|ivs| - 1]);
      assert forall i :: 0 <= i < |ivs| - 1 ==> ivs[i] == ivs[..|ivs| - 1][i];
      if IsWork(last.name) then prefix + [last] else prefix
  }

  /** The Work filter keeps an interval exactly when its name has the prefix. */
  lemma WorkIntervalsSingle(iv: Placemarks.Interval)
    ensures WorkIntervals([iv]) == if IsWork(iv.name) then [iv] else []
  {
    assert [iv][..0] == [];
  }

  /** The Work filter works piece by piece, so it keeps order and multiplicity. */
  lemma {:induction false} WorkIntervalsAppend(a: seq<Placemarks.Interval>, b: seq<Placemarks.Interval>)
    ensures WorkIntervals(a + b) == WorkIntervals(a) + WorkIntervals(b)
    decreases |b|
  {
    if |b| == 0 {
      assert a + b == a;
    } else {
      var init := b[..|b| - 1];
      assert (a + b)[..|a + b| - 1] == a + init;
      assert (a + b)[|a + b| - 1] == b[|b| - 1];
      WorkIntervalsAppend(a, init);
    }
  }

  /** What one interval adds to its day: its duration if it is Work, else nothing. */
  function WorkShare(iv: Placemarks.Interval): real {
    if IsWork(iv.name) then Hours(iv) else 0.0
  }

  /** The day's exact total as `get_timeline_for_week` accumulates it in `tot`. */
  function WorkHours(ivs: seq<Placemarks.Interval>): real {
    if |ivs| == 0 then 0.0 else WorkHours(ivs[..|ivs| - 1]) + WorkShare(ivs[|ivs| - 1])
  }

  lemma TotalHoursSnoc(ivs: seq<Placemarks.Interval>, iv: Placemarks.Interval)
    ensures TotalHours(ivs + [iv]) == TotalHours(ivs) + Hours(iv)
  {
    assert (ivs + [iv])[..|ivs|] == ivs;
  }

  /** The accumulated total is the plain sum over the Work intervals alone. */
  lemma {:induction false} WorkHoursIsFilteredTotal(ivs: seq<Placemarks.Interval>)
    ensures WorkHours(ivs) == TotalHours(WorkIntervals(ivs))
  {
    if |ivs| > 0 {
      var init := ivs[..|ivs| - 1];
      var last := ivs[|ivs| - 1];
      WorkHoursIsFilteredTotal(init);
      if IsWork(last.name) {
        TotalHoursSnoc(WorkIntervals(init), last);
      }
    }
  }

  /** A day's total splits over any split of its intervals. */
  lemma {:induction false} WorkHoursAppend(a: seq<Placemarks.Interval>, b: seq<Placemarks.Interval>)
    ensures WorkHours(a + b) == WorkHours(a) + WorkHours(b)
    decreases |b|
  {
    if |b| == 0 {
      assert a + b == a;
    } else {
      var init := b[..|b| - 1];
      assert (a + b)[..|a + b| - 1] == a + init;
      assert (a + b)[|a + b| - 1] == b[|b| - 1];
      WorkHoursAppend(a, init);
    }
  }

  /** Taking one interval out of a list takes its share out of the day total. */
  lemma WorkHoursRemove(p: seq<Placemarks.Interval>, x: Placemarks.Interval, q: seq<Placemarks.Interval>)
    ensures WorkHours(p + [x] + q) == WorkHours(p + q) + WorkShare(x)
  {
    assert (p + [x])[..|p|] == p;
    WorkHoursAppend(p + [x], q);
    WorkHoursAppend(p, q);
  }

  lemma MultisetRemove(a: seq<Placemarks.Interval>, b: seq<Placemarks.Interval>, j: nat)
    requires |a| > 0 && j < |b| && b[j] == a[|a| - 1]
    requires multiset(a) == multiset(b)
    ensures multiset(a[..|a| - 1]) == multiset(b[..j] + b[j + 1..])
  {
    var x := b[j];
    assert a == a[..|a| - 1] + [x];
    assert b == b[..j] + [x] + b[j + 1..];
    calc {
      multiset(a[..|a| - 1]);
      multiset(a) - multiset{x};
      multiset(b[..j]) + multiset{x} + multiset(b[j + 1..]) - multiset{x};
      multiset(b[..j] + b[j + 1..]);
    }
  }

  /** The order in which the timeline lists the intervals does not change the day total. */
  lemma {:induction false} WorkHoursPermutation(a: seq<Placemarks.Interval>, b: seq<Placemarks.Interval>)
    requires multiset(a) == multiset(b)
    ensures WorkHours(a) == WorkHours(b)
    decreases |a|
  {
    if |a| == 0 {
      assert |b| == |multiset(b)| == 0;
    } else {
      var x := a[|a| - 1];
      assert x in multiset(a);
      var j :| 0 <= j < |b| && b[j] == x;
      MultisetRemove(a, b, j);
      WorkHoursPermutation(a[..|a| - 1], b[..j] + b[j + 1..]);
      assert b == b[..j] + [x] + b[j + 1..];
      WorkHoursRemove(b[..j], x, b[j + 1..]);
    }
  }

  /** Strictly over six hours, the break is subtracted once. */
  function BreakAdjusted(total: real, sub: real): real {
    if total > BreakThreshold then total - sub else total
  }

  /** One printed interval line: the interval with its own rounded and exact hours. */
  datatype Entry = Entry(interval: Placemarks.Interval, rounded: real, exact: real)

  /** One reported day: its Work entries and its (break-adjusted) total. */
  datatype DayReport = DayReport(date: Date, entries: seq<Entry>, rounded: real, exact: real)

  datatype WeekReport = WeekReport(days: seq<DayReport>, rounded: real, exact: real)

  function EntryOf(iv: Placemarks.Interval): Entry {
    var h := Hours(iv);
    Entry(iv, Rounding.RoundTo(h, Quarters).0, h)
  }

  function Entries(ivs: seq<Placemarks.Interval>): seq<Entry> {
    if |ivs| == 0 then []
    else
      var last := ivs[|ivs| - 1];
      Entries(ivs[..|ivs| - 1]) + (if IsWork(last.name) then [EntryOf(last)] else [])
  }

  /** The reference for one day's report. */
  function DaySummary(date: Date, ivs: seq<Placemarks.Interval>, sub: real): DayReport {
    var total := BreakAdjusted(WorkHours(ivs), sub);
    DayReport(date, Entries(ivs), Rounding.RoundTo(total, Quarters).0, total)
  }

  /** The inner loop of `get_timeline_for_week` for one day. */
  method SummarizeDay(date: Date, ivs: seq<Placemarks.Interval>, sub: real) returns (d: DayReport)
    ensures d == DaySummary(date, ivs, sub)
  {
    var tot := 0.0;
    var entries: seq<Entry> := [];
    for i := 0 to |ivs|
      invariant tot == WorkHours(ivs[..i])
      invariant entries == Entries(ivs[..i])
    {
      var iv := ivs[i];
      assert ivs[..i + 1][..i] == ivs[..i];
      if IsWork(iv.name) {
        var (rounded, exact) := Rounding.RoundTo(Hours(iv), Quarters);
        entries := entries + [Entry(iv, rounded, exact)];
        tot := tot + exact;
      }
    }
    assert ivs[..|ivs|] == ivs;
    if tot > BreakThreshold {
      tot := tot - sub;
    }
    var (rounded, exact) := Rounding.RoundTo(tot, Quarters);
    d := DayReport(date, entries, rounded, exact);
  }

  /** `[start + timedelta(days=i) for i in range(0, 5)]`. */
  function ReportDays(target: Date): (days: seq<Date>)
    requires Valid(target)
    ensures |days| == ReportedDays
    ensures forall i :: 0 <= i < |days| ==> Valid(days[i]) && Weekday(days[i]) == i
    ensures days[0] == WeekStart(target)
    ensures forall i :: 0 <= i < |days| - 1 ==> days[i + 1] == NextDay(days[i])
  {
    var start := WeekStart(target);
    var days := seq(ReportedDays, i requires 0 <= i < ReportedDays => AddDays(start, i));
    forall i | 0 <= i < ReportedDays
      ensures Weekday(days[i]) == i
    {
      WeekdayAfterMonday(start, i);
    }
    days
  }

  /** Sum of the days' break-adjusted exact totals. */
  function SumExact(days: seq<DayReport>): real {
    if |days| == 0 then 0.0 else SumExact(days[..|days| - 1]) + days[|days| - 1].exact
  }

  lemma SumExactAppend(days: seq<DayReport>, day: DayReport)
    ensures SumExact(days + [day]) == SumExact(days) + day.exact
  {
    assert (days + [day])[..|days|] == days;
  }

  /** One summary per day, in order. */
  function Summaries(days: seq<Date>, ivss: seq<seq<Placemarks.Interval>>, sub: real): (r: seq<DayReport>)
    requires |days| == |ivss|
    ensures |r| == |days|
  {
    if |days| == 0 then []
    else Summaries(days[..|days| - 1], ivss[..|ivss| - 1], sub) + [DaySummary(days[|days| - 1], ivss[|ivss| - 1], sub)]
  }

  lemma SummariesStep(days: seq<Date>, i: nat, ivss: seq<seq<Placemarks.Interval>>, ivs: seq<Placemarks.Interval>, sub: real)
    requires i < |days| && |ivss| == i
    ensures Summaries(days[..i + 1], ivss + [ivs], sub) == Summaries(days[..i], ivss, sub) + [DaySummary(days[i], ivs, sub)]
  {
    var d := days[..i + 1];
    var v := ivss + [ivs];
    assert d[..|d| - 1] == days[..i] && d[|d| - 1] == days[i];
    assert v[..|v| - 1] == ivss && v[|v| - 1] == ivs;
  }

  /** The reference for the week: one summary per day, the cumulative total
      and its rounding. */
  function WeekFromIntervals(days: seq<Date>, ivss: seq<seq<Placemarks.Interval>>, sub: real): WeekReport
    requires |days| == |ivss|
  {
    var reports := Summaries(days, ivss, sub);
    var cum := SumExact(reports);
    WeekReport(reports, Rounding.RoundTo(cum, Quarters).0, cum)
  }

  /** Every day's intervals, fetched one day at a time in order, or the first failure. */
  datatype Fetched = Fetched(result: Result<seq<seq<Placemarks.Interval>>>, cache: ResponseCache.Cache)

  function FetchDays(days: seq<Date>, cfg: Config, cache: ResponseCache.Cache): (f: Fetched)
    requires forall i :: 0 <= i < |days| ==> Valid(days[i])
    ensures f.result.Success? ==> |f.result.value| == |days|
    ensures forall k :: k in cache ==> k in f.cache && f.cache[k] == cache[k]
    ensures !cfg.useCache ==> f.cache == cache
    decreases |days|
  {
    if |days| == 0 then Fetched(Success([]), cache)
    else
      var prev := FetchDays(days[..|days| - 1], cfg, cache);
      match prev.result
      case Failure(_) => prev
      case Success(ivss) =>
        var day := GetTimeline(days[|days| - 1], cfg, prev.cache);
        match day.result
        case Failure(e) => Fetched(Failure(e), day.cache)
        case Success(ivs) => Fetched(Success(ivss + [ivs]), day.cache)
  }

  /** Fetching one more day extends a successful prefix by that day's result. */
  lemma FetchDaysStep(days: seq<Date>, i: nat, cfg: Config, cache: ResponseCache.Cache,
                      ivss: seq<seq<Placemarks.Interval>>, c: ResponseCache.Cache)
    requires forall j :: 0 <= j < |days| ==> Valid(days[j])
    requires i < |days|
    requires FetchDays(days[..i], cfg, cache) == Fetched(Success(ivss), c)
    ensures var day := GetTimeline(days[i], cfg, c);
            FetchDays(days[..i + 1], cfg, cache) ==
              match day.result
              case Failure(e) => Fetched(Failure(e), day.cache)
              case Success(ivs) => Fetched(Success(ivss + [ivs]), day.cache)
  {
    var prefix := days[..i + 1];
    assert prefix[..|prefix| - 1] == days[..i] && prefix[|prefix| - 1] == days[i];
  }

  /** Once a day fails, no later day is fetched and the failure stands. */
  lemma {:induction false} FetchDaysFailureStands(days: seq<Date>, k: nat, cfg: Config, cache: ResponseCache.Cache)
    requires forall i :: 0 <= i < |days| ==> Valid(days[i])
    requires k <= |days|
    requires FetchDays(days[..k], cfg, cache).result.Failure?
    ensures FetchDays(days, cfg, cache) == FetchDays(days[..k], cfg, cache)
    decreases |days|
  {
    if k < |days| {
      var init := days[..|days| - 1];
      assert init[..k] == days[..k];
      FetchDaysFailureStands(init, k, cfg, cache);
    } else {
      assert days[..k] == days;
    }
  }

  /** What one successful day adds to the loop state of `AccumulateDays`. */
  lemma DayStep(days: seq<Date>, i: nat, sub: real, cfg: Config, cache: ResponseCache.Cache,
                ivss: seq<seq<Placemarks.Interval>>, c: ResponseCache.Cache, reports: seq<DayReport>)
    requires forall j :: 0 <= j < |days| ==> Valid(days[j])
    requires i < |days| && |ivss| == i
    requires FetchDays(days[..i], cfg, cache) == Fetched(Success(ivss), c)
    requires reports == Summaries(days[..i], ivss, sub)
    requires GetTimeline(days[i], cfg, c).result.Success?
    ensures var day := GetTimeline(days[i], cfg, c);
            var report := DaySummary(days[i], day.result.value, sub);
            && FetchDays(days[..i + 1], cfg, cache) == Fetched(Success(ivss + [day.result.value]), day.cache)
            && reports + [report] == Summaries(days[..i + 1], ivss + [day.result.value], sub)
            && SumExact(reports + [report]) == SumExact(reports) + report.exact
  {
    var day := GetTimeline(days[i], cfg, c);
    FetchDaysStep(days, i, cfg, cache, ivss, c);
    SumExactAppend(reports, DaySummary(days[i], day.result.value, sub));
    SummariesStep(days, i, ivss, day.result.value, sub);
  }

  /** The day loop of `get_timeline_for_week`: fetch, summarise and
      accumulate each day in order; the first failure aborts. */
  method AccumulateDays(days: seq<Date>, sub: real, cfg: Config, cache: ResponseCache.Cache)
    returns (r: Result<WeekReport>, cache': ResponseCache.Cache)
    requires forall i :: 0 <= i < |days| ==> Valid(days[i])
    ensures var f := FetchDays(days, cfg, cache);
            && cache' == f.cache
            && (f.result.Failure? ==> r == Failure(f.result.error))
            && (f.result.Success? ==> r == Success(WeekFromIntervals(days, f.result.value, sub)))
  {
    var cum := 0.0;
    var reports: seq<DayReport> := [];
    ghost var ivss: seq<seq<Placemarks.Interval>> := [];
    cache' := cache;
    for i := 0 to |days|
      invariant |reports| == |ivss| == i
      invariant FetchDays(days[..i], cfg, cache) == Fetched(Success(ivss), cache')
      invariant reports == Summaries(days[..i], ivss, sub)
      invariant cum == SumExact(reports)
    {
      var day := GetTimeline(days[i], cfg, cache');
      if day.result.Failure? {
        FetchDaysStep(days, i, cfg, cache, ivss, cache');
        FetchDaysFailureStands(days, i + 1, cfg, cache);
        cache' := day.cache;
        r := Failure(day.result.error);
        return;
      }
      var report := SummarizeDay(days[i], day.result.value, sub);
      DayStep(days, i, sub, cfg, cache, ivss, cache', reports);
      reports := reports + [report];
      cum := cum + report.exact;
      ivss := ivss + [day.result.value];
      cache' := day.cache;
    }
    assert days[..|days|] == days;
    var (rounded, exact) := Rounding.RoundTo(cum, Quarters);
    r := Success(WeekReport(reports, rounded, exact));
  }

  /** `get_timeline_for_week(target_date, sub)`: the five working days of the target's week. */
  method GetTimelineForWeek(target: Date, sub: real, cfg: Config, cache: ResponseCache.Cache)
    returns (r: Result<WeekReport>, cache': ResponseCache.Cache)
    requires Valid(target)
    ensures var f := FetchDays(ReportDays(target), cfg, cache);
            && cache' == f.cache
            && (f.result.Failure? ==> r == Failure(f.result.error))
            && (f.result.Success? ==> r == Success(WeekFromIntervals(ReportDays(target), f.result.value, sub)))
  {
    r, cache' := AccumulateDays(ReportDays(target), sub, cfg, cache);
  }

  /** The prefix test is exact and case-sensitive. */
  lemma IsWorkExamples()
    ensures IsWork("Work") && IsWork("Working from home") && IsWork("Work 2")
    ensures !IsWork("work") && !IsWork("WORK") && !IsWork("Homework") && !IsWork("Wor") && !IsWork("")
  {
    assert "work"[..4][0] != WorkPrefix[0];
    assert "WORK"[..4][1] != WorkPrefix[1];
  }

  /** One printed line per Work interval, in order, each carrying that interval's own hours. */
  lemma {:induction false} EntriesAreWorkIntervals(ivs: seq<Placemarks.Interval>)
    ensures |Entries(ivs)| == |WorkIntervals(ivs)|
    ensures forall i :: 0 <= i < |Entries(ivs)| ==>
      && Entries(ivs)[i].interval == WorkIntervals(ivs)[i]
      && Entries(ivs)[i].exact == Hours(WorkIntervals(ivs)[i])
      && Entries(ivs)[i].rounded == Rounding.RoundTo(Hours(WorkIntervals(ivs)[i]), Quarters).0
  {
    if |ivs| > 0 {
      EntriesAreWorkIntervals(ivs[..|ivs| - 1]);
    }
  }

  /** The day total: the Work hours, less the break exactly once when they
      exceed six hours strictly; a total of exactly six is left as it is. */
  lemma DaySummaryTotal(date: Date, ivs: seq<Placemarks.Interval>, sub: real)
    ensures var work := TotalHours(WorkIntervals(ivs));
            var d := DaySummary(date, ivs, sub);
            && (work <= BreakThreshold ==> d.exact == work)
            && (work > BreakThreshold ==> d.exact == work - sub)
  {
    WorkHoursIsFilteredTotal(ivs);
  }

  /** The displayed day total is the quarter-hour floor of the exact one. */
  lemma DaySummaryRounded(date: Date, ivs: seq<Placemarks.Interval>, sub: real)
    ensures var d := DaySummary(date, ivs, sub);
            && d.rounded <= d.exact < d.rounded + 0.25
            && Rounding.OnGrid(d.rounded, Quarters)
  {
    Rounding.RoundToBounds(BreakAdjusted(WorkHours(ivs), sub), Quarters);
  }

  /** Without Work intervals nothing accumulates: a day with no Work contributes 0. */
  lemma {:induction false} NoWorkNoHours(ivs: seq<Placemarks.Interval>)
    requires forall i :: 0 <= i < |ivs| ==> !IsWork(ivs[i].name)
    ensures WorkHours(ivs) == 0.0 && Entries(ivs) == []
  {
    if |ivs| > 0 {
      NoWorkNoHours(ivs[..|ivs| - 1]);
    }
  }

  lemma NoWorkDay(date: Date, ivs: seq<Placemarks.Interval>, sub: real)
    requires forall i :: 0 <= i < |ivs| ==> !IsWork(ivs[i].name)
    ensures DaySummary(date, ivs, sub) == DayReport(date, [], 0.0, 0.0)
  {
    NoWorkNoHours(ivs);
    Rounding.QuarterHourExamples();
  }

  /** The week's first reported day is the Monday on or before the target,
      and the target is among the reported days exactly when it is a weekday. */
  lemma TargetInReportedWeek(target: Date)
    requires Valid(target)
    ensures var days := ReportDays(target);
            && Ordinal(days[0]) <= Ordinal(target) <= Ordinal(days[0]) + 6
            && (target in days <==> Weekday(target) < ReportedDays)
  {
    var days := ReportDays(target);
    var w := Weekday(target);
    assert AddDays(days[0], w) == target;
    if w < ReportedDays {
      assert days[w] == target;
    }
  }

  lemma {:induction false} SummariesPointwise(days: seq<Date>, ivss: seq<seq<Placemarks.Interval>>, sub: real)
    requires |days| == |ivss|
    ensures forall i :: 0 <= i < |days| ==> Summaries(days, ivss, sub)[i] == DaySummary(days[i], ivss[i], sub)
  {
    if |days| > 0 {
      SummariesPointwise(days[..|days| - 1], ivss[..|ivss| - 1], sub);
    }
  }

  /** The week: one summary per day in order, the cumulative total is the sum
      of the break-adjusted day totals, and the displayed value is its
      quarter-hour floor. */
  lemma WeekTotals(days: seq<Date>, ivss: seq<seq<Placemarks.Interval>>, sub: real)
    requires |days| == |ivss|
    ensures var w := WeekFromIntervals(days, ivss, sub);
            && |w.days| == |days|
            && (forall i :: 0 <= i < |days| ==> w.days[i] == DaySummary(days[i], ivss[i], sub))
            && w.exact == SumExact(w.days)
            && w.rounded <= w.exact < w.rounded + 0.25
            && Rounding.OnGrid(w.rounded, Quarters)
  {
    SummariesPointwise(days, ivss, sub);
    Rounding.RoundToBounds(SumExact(Summaries(days, ivss, sub)), Quarters);
  }

  /** With caching off a day's result does not depend on what the cache holds. */
  lemma GetTimelineCacheOff(day: Date, cfg: Config, c1: ResponseCache.Cache, c2: ResponseCache.Cache)
    requires Valid(day) && !cfg.useCache
    ensures GetTimeline(day, cfg, c1).result == GetTimeline(day, cfg, c2).result
  {
    ResponseCache.CacheOffIgnoresCache(QueryEncoder.TimelineParams(day), c1, c2, cfg.send);
  }

  /** With caching off the week's fetches do not depend on what the cache holds. */
  lemma {:induction false} FetchDaysCacheOff(days: seq<Date>, cfg: Config, c1: ResponseCache.Cache, c2: ResponseCache.Cache)
    requires forall i :: 0 <= i < |days| ==> Valid(days[i])
    requires !cfg.useCache
    ensures FetchDays(days, cfg, c1).result == FetchDays(days, cfg, c2).result
    decreases |days|
  {
    if |days| > 0 {
      FetchDaysCacheOff(days[..|days| - 1], cfg, c1, c2);
      GetTimelineCacheOff(days[|days| - 1], cfg, c1, c2);
    }
  }

  /** A cache that agrees with the transport is invisible to a day's fetch, and stays in agreement. */
  lemma GetTimelineCacheTransparent(day: Date, cfg: Config, cache: ResponseCache.Cache)
    requires Valid(day) && cfg.useCache && ResponseCache.Consistent(cache, cfg.send)
    ensures GetTimeline(day, cfg, cache).result == GetTimeline(day, cfg.(useCache := false), cache).result
    ensures ResponseCache.Consistent(GetTimeline(day, cfg, cache).cache, cfg.send)
  {
    ResponseCache.CacheTransparent(QueryEncoder.TimelineParams(day), cache, cfg.send);
  }

  /** Against a transport that keeps answering the same way, running the week
      with a consistent cache gives the same result as running it without. */
  lemma {:induction false} FetchDaysCacheTransparent(days: seq<Date>, cfg: Config, cache: ResponseCache.Cache)
    requires forall i :: 0 <= i < |days| ==> Valid(days[i])
    requires cfg.useCache && ResponseCache.Consistent(cache, cfg.send)
    ensures FetchDays(days, cfg, cache).result == FetchDays(days, cfg.(useCache := false), cache).result
    ensures ResponseCache.Consistent(FetchDays(days, cfg, cache).cache, cfg.send)
    decreases |days|
  {
    if |days| > 0 {
      var init := days[..|days| - 1];
      FetchDaysCacheTransparent(init, cfg, cache);
      var prev := FetchDays(init, cfg, cache);
      if prev.result.Success? {
        GetTimelineCacheTransparent(days[|days| - 1], cfg, prev.cache);
        GetTimelineCacheOff(days[|days| - 1], cfg.(useCache := false), prev.cache, cache);
      }
    }
  }

  /** Wednesday 2025-01-08 reports Monday 6 to Friday 10 January 2025. */
  lemma ReportDaysExample()
    ensures ReportDays(Date(2025, 1, 8)) ==
      [Date(2025, 1, 6), Date(2025, 1, 7), Date(2025, 1, 8), Date(2025, 1, 9), Date(2025, 1, 10)]
  {
    var target := Date(2025, 1, 8);
    DaysBeforeYearClosedForm(2025);
    assert Ordinal(target) == 739259;
    assert Weekday(target) == 2;
    var monday := Date(2025, 1, 6);
    assert SubDays(target, 2) == SubDays(Date(2025, 1, 7), 1) == monday;
    assert WeekStart(target) == monday;
  }

  /** An 8.5-hour Work segment and a non-Work segment: the day reports the
      segment alone, and 8.0 hours once the half-hour break is taken off. */
  lemma DaySummaryExample()
    ensures var work := Placemarks.Interval("Work", 1736154000000, 1736184600000);
            var lunch := Placemarks.Interval("Lunch", 1736165000000, 1736167000000);
            DaySummary(Date(2025, 1, 6), [work, lunch], DefaultBreak) ==
              DayReport(Date(2025, 1, 6), [Entry(work, 8.5, 8.5)], 8.0, 8.0)
  {
    var work := Placemarks.Interval("Work", 1736154000000, 1736184600000);
    var lunch := Placemarks.Interval("Lunch", 1736165000000, 1736167000000);
    assert !IsWork(lunch.name) by {
      assert lunch.name[..4][0] != WorkPrefix[0];
    }
    var ivs := [work, lunch];
    assert ivs[..1] == [work] && [work][..0] == [];
    assert Hours(work) == 8.5;
    assert WorkHours(ivs) == WorkHours([work]) == 8.5;
    Rounding.QuarterHourExamples();
    assert Entries(ivs) == Entries([work]) == [EntryOf(work)] == [Entry(work, 8.5, 8.5)];
    assert (8.0 * 4.0).Floor == 32;
  }
}

=== FILE: calendar.dfy ===
/** Calendar days on the proleptic Gregorian calendar, as Python's `date`
    sees them: day ordinals (`toordinal`), Monday-based weekdays
    (`weekday`) and whole-day steps (`+ timedelta(days=n)`). */
module Calendar {

  datatype Date = Date(year: int, month: int, day: int)

  /** Largest year Python's `date` can represent. */
  const MaxYear := 9999

  predicate IsLeapYear(y: int) {
    y % 4 == 0 && (y % 100 != 0 || y % 400 == 0)
  }

  function DaysInMonth(y: int, m: int): (n: int)
    requires 1 <= m <= 12
    ensures 28 <= n <= 31
  {
    if m == 2 then (if IsLeapYear(y) then 29 else 28)
    else if m == 4 || m == 6 || m == 9 || m == 11 then 30
    else 31
  }

  predicate Valid(d: Date) {
    && d.year >= 1
    && 1 <= d.month <= 12
    && 1 <= d.day <= DaysInMonth(d.year, d.month)
  }

  function DaysInYear(y: int): int {
    if IsLeapYear(y) then 366 else 365
  }

  /** Days in the years before `y`; year 1 starts the count. */
  function DaysBeforeYear(y: int): (n: int)
    requires y >= 1
    ensures n >= 0
  {
    if y == 1 then 0 else DaysBeforeYear(y - 1) + DaysInYear(y - 1)
  }

  /** The closed form Python's `date` module uses for the days before year `x + 1`. */
  function ClosedDaysBefore(x: int): int {
    365 * x + x / 4 - x / 100 + x / 400
  }

  lemma ClosedDaysBeforeStep(z: int)
    requires z >= 1
    ensures ClosedDaysBefore(z) == ClosedDaysBefore(z - 1) + DaysInYear(z)
  {
    DivStep(z);
  }

  lemma {:induction false} DaysBeforeYearClosedForm(y: int)
    requires y >= 1
    ensures DaysBeforeYear(y) == ClosedDaysBefore(y - 1)
  {
    if y > 1 {
      DaysBeforeYearClosedForm(y - 1);
      ClosedDaysBeforeStep(y - 1);
    }
  }

  /** Crossing year `z` adds one to the count of multiples of 4, 100 and 400 exactly when `z` is one. */
  lemma DivStep(z: int)
    requires z >= 1
    ensures z / 4 == (z - 1) / 4 + (if z % 4 == 0 then 1 else 0)
    ensures z / 100 == (z - 1) / 100 + (if z % 100 == 0 then 1 else 0)
    ensures z / 400 == (z - 1) / 400 + (if z % 400 == 0 then 1 else 0)
  {
  }

  /** Days in the months of year `y` before month `m`. */
  function DaysBeforeMonth(y: int, m: int): (n: int)
    requires 1 <= m <= 12
    ensures n >= 0
  {
    if m == 1 then 0 else DaysBeforeMonth(y, m - 1) + DaysInMonth(y, m - 1)
  }

  /** December 31 closes the year. */
  lemma DaysBeforeDecember(y: int)
    ensures DaysBeforeMonth(y, 12) + 31 == DaysInYear(y)
  {
    var leap := if IsLeapYear(y) then 1 else 0;
    assert DaysBeforeMonth(y, 2) == 31;
    assert DaysBeforeMonth(y, 3) == 59 + leap;
    assert DaysBeforeMonth(y, 4) == 90 + leap;
    assert DaysBeforeMonth(y, 5) == 120 + leap;
    assert DaysBeforeMonth(y, 6) == 151 + leap;
    assert DaysBeforeMonth(y, 7) == 181 + leap;
    assert DaysBeforeMonth(y, 8) == 212 + leap;
    assert DaysBeforeMonth(y, 9) == 243 + leap;
    assert DaysBeforeMonth(y, 10) == 273 + leap;
    assert DaysBeforeMonth(y, 11) == 304 + leap;
    assert DaysBeforeMonth(y, 12) == 334 + leap;
  }

  /** Python's `date.toordinal()`: 0001-01-01 is day 1. */
  function Ordinal(d: Date): (n: int)
    requires Valid(d)
    ensures n >= 1
  {
    DaysBeforeYear(d.year) + DaysBeforeMonth(d.year, d.month) + d.day
  }

  /** Python's `date.weekday()`: Monday is 0, Sunday is 6. */
  function Weekday(d: Date): (w: int)
    requires Valid(d)
    ensures 0 <= w < 7
  {
    (Ordinal(d) + 6) % 7
  }

  /** The calendar day after `d`, rolling over month and year ends. */
  function NextDay(d: Date): (r: Date)
    requires Valid(d)
    ensures Valid(r)
    ensures Ordinal(r) == Ordinal(d) + 1
  {
    if d.day < DaysInMonth(d.year, d.month) then
      Date(d.year, d.month, d.day + 1)
    else if d.month < 12 then
      Date(d.year, d.month + 1, 1)
    else
      DaysBeforeDecember(d.year);
      Date(d.year + 1, 1, 1)
  }

  /** The calendar day before `d`; 0001-01-01 has none. */
  function PrevDay(d: Date): (r: Date)
    requires Valid(d) && Ordinal(d) > 1
    ensures Valid(r)
    ensures NextDay(r) == d
    ensures Ordinal(r) == Ordinal(d) - 1
  {
    if d.day > 1 then
      Date(d.year, d.month, d.day - 1)
    else if d.month > 1 then
      Date(d.year, d.month - 1, DaysInMonth(d.year, d.month - 1))
    else
      Date(d.year - 1, 12, 31)
  }

  /** `d + timedelta(days=n)` for n >= 0. */
  function AddDays(d: Date, n: nat): (r: Date)
    requires Valid(d)
    ensures Valid(r)
    ensures Ordinal(r) == Ordinal(d) + n
  {
    if n == 0 then d else NextDay(AddDays(d, n - 1))
  }

  /** `d - timedelta(days=n)`, defined while the result stays at or after 0001-01-01. */
  function SubDays(d: Date, n: nat): (r: Date)
    requires Valid(d) && n < Ordinal(d)
    ensures Valid(r)
    ensures Ordinal(r) == Ordinal(d) - n
    decreases n
  {
    if n == 0 then d
    else
      var p := PrevDay(d);
      SubDays(p, n - 1)
  }

  lemma ModShift(k: int, n: nat)
    ensures (k + n + 6) % 7 == ((k + 6) % 7 + n) % 7
  {
  }

  lemma WeekdayNextDay(d: Date)
    requires Valid(d)
    ensures Weekday(NextDay(d)) == (Weekday(d) + 1) % 7
  {
    ModShift(Ordinal(d), 1);
  }

  lemma WeekdayAddDays(d: Date, n: nat)
    requires Valid(d)
    ensures Weekday(AddDays(d, n)) == (Weekday(d) + n) % 7
  {
    ModShift(Ordinal(d), n);
  }

  /** Stepping back `n` days and forward `n` days returns to the same day. */
  lemma {:induction false} AddDaysSubDays(d: Date, n: nat)
    requires Valid(d) && n < Ordinal(d)
    ensures AddDays(SubDays(d, n), n) == d
    decreases n
  {
    if n > 0 {
      var p := PrevDay(d);
      assert Ordinal(p) == Ordinal(d) - 1;
      var s := SubDays(p, n - 1);
      assert SubDays(d, n) == s;
      AddDaysSubDays(p, n - 1);
      assert AddDays(s, n - 1) == p;
      assert AddDays(s, n) == NextDay(AddDays(s, n - 1));
      assert NextDay(p) == d;
    }
  }

  /** Two valid dates with the same ordinal are the same date. */
  lemma OrdinalInjective(a: Date, b: Date)
    requires Valid(a) && Valid(b)
    ensures Ordinal(a) == Ordinal(b) <==> a == b
  {
    if Ordinal(a) == Ordinal(b) && a != b {
      if a.year < b.year {
        YearBounds(a);
        YearBounds(b);
        DaysBeforeYearMonotone(a.year + 1, b.year);
        assert false;
      } else if b.year < a.year {
        YearBounds(a);
        YearBounds(b);
        DaysBeforeYearMonotone(b.year + 1, a.year);
        assert false;
      } else if a.month < b.month {
        MonthsOrdered(a.year, a.month, b.month);
        assert false;
      } else if b.month < a.month {
        MonthsOrdered(a.year, b.month, a.month);
        assert false;
      } else {
        assert false;
      }
    }
  }

  /** Every month of year `y` ends within the year. */
  lemma {:induction false} MonthWithinYear(y: int, m: int)
    requires 1 <= m <= 12
    ensures DaysBeforeMonth(y, m) + DaysInMonth(y, m) <= DaysInYear(y)
    decreases 12 - m
  {
    if m == 12 {
      DaysBeforeDecember(y);
    } else {
      MonthWithinYear(y, m + 1);
    }
  }

  /** An earlier month ends before a later month begins. */
  lemma {:induction false} MonthsOrdered(y: int, a: int, b: int)
    requires 1 <= a < b <= 12
    ensures DaysBeforeMonth(y, a) + DaysInMonth(y, a) <= DaysBeforeMonth(y, b)
    decreases b
  {
    if a < b - 1 {
      MonthsOrdered(y, a, b - 1);
    }
  }

  /** A date's ordinal lies within its own year. */
  lemma YearBounds(d: Date)
    requires Valid(d)
    ensures DaysBeforeYear(d.year) < Ordinal(d) <= DaysBeforeYear(d.year + 1)
  {
    MonthWithinYear(d.year, d.month);
  }

  lemma {:induction false} DaysBeforeYearMonotone(x: int, y: int)
    requires 1 <= x <= y
    ensures DaysBeforeYear(x) <= DaysBeforeYear(y)
  {
    if x < y {
      DaysBeforeYearMonotone(x, y - 1);
    }
  }

  lemma MondayArithmetic(k: int)
    requires k >= 1
    ensures 0 <= (k + 6) % 7 < k
    ensures (k - (k + 6) % 7 + 6) % 7 == 0
  {
  }

  /** Monday of the week holding `d`: `d - timedelta(days=d.weekday())`. */
  function WeekStart(d: Date): (r: Date)
    requires Valid(d)
    ensures Valid(r) && Weekday(r) == 0
    ensures AddDays(r, Weekday(d)) == d
  {
    var k := Ordinal(d);
    MondayArithmetic(k);
    var w := Weekday(d);
    AddDaysSubDays(d, w);
    SubDays(d, w)
  }

  /** The i-th day after a Monday, within the same week, has weekday i. */
  lemma WeekdayAfterMonday(monday: Date, i: nat)
    requires Valid(monday) && Weekday(monday) == 0 && i < 7
    ensures Weekday(AddDays(monday, i)) == i
  {
    WeekdayAddDays(monday, i);
  }
}

=== FILE: errors.dfy ===
/** Failure kinds of the timesheet core and the result type that carries them. */
module Errors {

  /** Why computing a day or a week aborted. Every kind aborts the whole run:
      there is no retry and no partial report. */
  datatype Error =
    | FetchFailed(status: int)      // transport answered outside the accepted status band
    | DateOverflow                  // the day after the target lies past year 9999
    | MissingName                   // a point placemark without a usable name
    | MissingTimeSpan               // a point placemark without a TimeSpan
    | MissingTimestamp              // a TimeSpan without a usable begin or end
    | BadTimestamp(text: string)    // a begin/end text the ISO-8601 parser rejects

  datatype Result<+T> = Success(value: T) | Failure(error: Error) {
    predicate IsFailure() {
      Failure?
    }

    function PropagateFailure<U>(): Result<U>
      requires Failure?
    {
      Failure(error)
    }

    function Extract(): T
      requires Success?
    {
      value
    }
  }

  datatype Option<+T> = None | Some(value: T) {
    predicate IsFailure() {
      None?
    }

    function PropagateFailure<U>(): Option<U>
      requires None?
    {
      None
    }

    function Extract(): T
      requires Some?
    {
      value
    }
  }
}

=== FILE: extension.dfy ===
/** The browser-extension twin of the encoder (extension/background.js):
    `rewriteDateString` over JavaScript `Date` values and `addDays`. */
module Extension {
  import Errors
  import Calendar
  import QueryEncoder

  /** The calendar part of a JavaScript `Date` as its getters report it:
      `getFullYear()`, `getMonth()` (zero-based) and `getDate()`. */
  datatype JsDate = JsDate(fullYear: int, monthIndex: int, date: int)

  function ToDate(j: JsDate): Calendar.Date {
    Calendar.Date(j.fullYear, j.monthIndex + 1, j.date)
  }

  function FromDate(d: Calendar.Date): JsDate {
    JsDate(d.year, d.month - 1, d.day)
  }

  predicate ValidJs(j: JsDate) {
    Calendar.Valid(ToDate(j))
  }

  /** `rewriteDateString(fromDate, toDate)`: the getters' values go on the wire unchanged. */
  function RewriteDateString(from: JsDate, to: JsDate): (r: string)
    requires ValidJs(from) && ValidJs(to)
    ensures QueryEncoder.DecodeFields(r) ==
      Errors.Some(QueryEncoder.Fields(from.fullYear, from.monthIndex, from.date, to.fullYear, to.monthIndex, to.date))
  {
    var f := QueryEncoder.Fields(from.fullYear, from.monthIndex, from.date, to.fullYear, to.monthIndex, to.date);
    QueryEncoder.DecodeEncodeFields(f);
    QueryEncoder.EncodeFields(f)
  }

  /** The value is the only spelling of the six getter results in the grammar. */
  lemma RewriteDateStringUnique(from: JsDate, to: JsDate, s: string)
    requires ValidJs(from) && ValidJs(to)
    ensures QueryEncoder.DecodeFields(s) ==
        Errors.Some(QueryEncoder.Fields(from.fullYear, from.monthIndex, from.date, to.fullYear, to.monthIndex, to.date))
      <==> s == RewriteDateString(from, to)
  {
    QueryEncoder.DecodeFieldsCanonical(s,
      QueryEncoder.Fields(from.fullYear, from.monthIndex, from.date, to.fullYear, to.monthIndex, to.date));
  }

  /** For the same calendar dates the extension and the script send the same `pb` value. */
  lemma RewriteDateStringMatchesScript(a: Calendar.Date, b: Calendar.Date)
    requires Calendar.Valid(a) && Calendar.Valid(b)
    ensures ValidJs(FromDate(a)) && ValidJs(FromDate(b))
    ensures RewriteDateString(FromDate(a), FromDate(b)) == QueryEncoder.RewriteDaterangeString(a, b)
  {
    var f := QueryEncoder.DateFields(a, b);
    assert ToDate(FromDate(a)) == a && ToDate(FromDate(b)) == b;
    assert RewriteDateString(FromDate(a), FromDate(b)) == QueryEncoder.EncodeFields(f);
  }

  /** `addDays(date, n)`: a fresh copy moved forward by `setDate(getDate() + 1)`. */
  function AddDays(date: JsDate, n: int): (r: JsDate)
    requires ValidJs(date)
    ensures ValidJs(r)
    ensures 0 <= r.monthIndex <= 11
    ensures ToDate(r) == Calendar.NextDay(ToDate(date))
  {
    FromDate(Calendar.NextDay(ToDate(date)))
  }

  /** The day count is ignored: every call advances exactly one day. */
  lemma AddDaysIgnoresCount(date: JsDate, n: int, m: int)
    requires ValidJs(date)
    ensures AddDays(date, n) == AddDays(date, m)
    ensures Calendar.Ordinal(ToDate(AddDays(date, n))) == Calendar.Ordinal(ToDate(date)) + 1
  {
  }
}

=== FILE: placemarks.dfy ===
/** Interval extraction in `get_timeline` (main.py): one `(name, start, end)`
    per placemark that has a `Point` child, in document order. The markup
    itself is not modelled: a document is the sequence of its placemarks,
    each reduced to the parts `get_timeline` looks at. */
module Placemarks {
  import opened Errors
  import Timestamps

  /** A `TimeSpan` element: the text of its `begin` and `end` children, None when absent or not plain text. */
  datatype TimeSpan = TimeSpan(begin: Option<string>, end: Option<string>)

  /** A `Placemark` element: whether it has a `Point` child, the text of its
      `name`, and its `TimeSpan`. */
  datatype Placemark = Placemark(hasPoint: bool, name: Option<string>, timeSpan: Option<TimeSpan>)

  /** One activity segment; instants are epoch milliseconds. */
  datatype Interval = Interval(name: string, start: int, end: int)

  /** One of the two timestamps of a `TimeSpan`, through `parse_date_str`. */
  function ReadInstant(text: Option<string>, fromIsoFormat: string -> Option<int>): (r: Result<int>)
    ensures r.Success? <==> text.Some? && Timestamps.ParseDateStr(text.value, fromIsoFormat).Some?
    ensures r.Success? ==> r.value == Timestamps.ParseDateStr(text.value, fromIsoFormat).value
    ensures text.None? ==> r == Failure(MissingTimestamp)
  {
    match text
    case None => Failure(MissingTimestamp)
    case Some(t) =>
      match Timestamps.ParseDateStr(t, fromIsoFormat)
      case None => Failure(BadTimestamp(t))
      case Some(ms) => Success(ms)
  }

  /** The triple a point placemark yields; the name is read first, then the
      `TimeSpan`, then `begin`, then `end`, and the first missing or
      unreadable part aborts. */
  function PlacemarkInterval(p: Placemark, fromIsoFormat: string -> Option<int>): (r: Result<Interval>)
    ensures r.Success? <==>
      && p.name.Some? && p.timeSpan.Some?
      && ReadInstant(p.timeSpan.value.begin, fromIsoFormat).Success?
      && ReadInstant(p.timeSpan.value.end, fromIsoFormat).Success?
    ensures r.Success? ==>
      r.value == Interval(p.name.value,
                          ReadInstant(p.timeSpan.value.begin, fromIsoFormat).value,
                          ReadInstant(p.timeSpan.value.end, fromIsoFormat).value)
    ensures p.name.None? ==> r == Failure(MissingName)
    ensures p.name.Some? && p.timeSpan.None? ==> r == Failure(MissingTimeSpan)
    // `begin` is read before `end`: when both are unreadable, `begin`'s error is reported
    ensures p.name.Some? && p.timeSpan.Some? && ReadInstant(p.timeSpan.value.begin, fromIsoFormat).Failure? ==>
      r == Failure(ReadInstant(p.timeSpan.value.begin, fromIsoFormat).error)
    ensures p.name.Some? && p.timeSpan.Some? && ReadInstant(p.timeSpan.value.begin, fromIsoFormat).Success?
            && ReadInstant(p.timeSpan.value.end, fromIsoFormat).Failure? ==>
      r == Failure(ReadInstant(p.timeSpan.value.end, fromIsoFormat).error)
  {
    match p.name
    case None => Failure(MissingName)
    case Some(name) =>
      match p.timeSpan
      case None => Failure(MissingTimeSpan)
      case Some(span) =>
        var start :- ReadInstant(span.begin, fromIsoFormat);
        var end :- ReadInstant(span.end, fromIsoFormat);
        Success(Interval(name, start, end))
  }

  /** The placemarks that have a `Point` child, in document order. */
  function PointPlacemarks(ps: seq<Placemark>): (r: seq<Placemark>)
    ensures |r| <= |ps|
    ensures forall i :: 0 <= i < |r| ==> r[i].hasPoint && r[i] in ps
    ensures forall i :: 0 <= i < |ps| && ps[i].hasPoint ==> ps[i] in r
  {
    if |ps| == 0 then []
    else if ps[0].hasPoint then [ps[0]] + PointPlacemarks(ps[1..])
    else PointPlacemarks(ps[1..])
  }

  /** The point filter keeps each placemark exactly when it has a `Point` child. */
  lemma PointPlacemarksSingle(p: Placemark)
    ensures PointPlacemarks([p]) == if p.hasPoint then [p] else []
  {
    assert [p][1..] == [];
  }

  /** The point filter works piece by piece, so it keeps order and multiplicity. */
  lemma {:induction false} PointPlacemarksAppend(a: seq<Placemark>, b: seq<Placemark>)
    ensures PointPlacemarks(a + b) == PointPlacemarks(a) + PointPlacemarks(b)
    decreases |a|
  {
    if |a| == 0 {
      assert a + b == b;
    } else {
      assert (a + b)[0] == a[0];
      assert (a + b)[1..] == a[1..] + b;
      PointPlacemarksAppend(a[1..], b);
    }
  }

  /** The intervals `get_timeline` yields for a document. */
  function Intervals(ps: seq<Placemark>, fromIsoFormat: string -> Option<int>): (r: Result<seq<Interval>>)
    ensures r.Success? ==> |r.value| == |PointPlacemarks(ps)|
  {
    if |ps| == 0 then Success([])
    else if !ps[0].hasPoint then Intervals(ps[1..], fromIsoFormat)
    else
      var iv :- PlacemarkInterval(ps[0], fromIsoFormat);
      var ivs :- Intervals(ps[1..], fromIsoFormat);
      Success([iv] + ivs)
  }

  /** Extraction succeeds exactly when every point placemark yields a triple. */
  lemma {:induction false} IntervalsSucceed(ps: seq<Placemark>, fromIsoFormat: string -> Option<int>)
    ensures Intervals(ps, fromIsoFormat).Success? <==>
      forall i :: 0 <= i < |ps| && ps[i].hasPoint ==> PlacemarkInterval(ps[i], fromIsoFormat).Success?
  {
    if |ps| > 0 {
      var rest := ps[1..];
      IntervalsSucceed(rest, fromIsoFormat);
      assert forall i :: 1 <= i < |ps| ==> ps[i] == rest[i - 1];
    }
  }

  /** A successful extraction lists the triples of the point placemarks in document order. */
  lemma {:induction false} IntervalsInOrder(ps: seq<Placemark>, fromIsoFormat: string -> Option<int>, ivs: seq<Interval>)
    requires Intervals(ps, fromIsoFormat) == Success(ivs)
    ensures forall i :: 0 <= i < |ivs| ==>
      PlacemarkInterval(PointPlacemarks(ps)[i], fromIsoFormat) == Success(ivs[i])
  {
    if |ps| > 0 {
      var rest := ps[1..];
      if ps[0].hasPoint {
        var tail := Intervals(rest, fromIsoFormat).value;
        assert ivs == [PlacemarkInterval(ps[0], fromIsoFormat).value] + tail;
        IntervalsInOrder(rest, fromIsoFormat, tail);
        var points := PointPlacemarks(ps);
        assert points == [ps[0]] + PointPlacemarks(rest);
        forall i | 0 <= i < |ivs|
          ensures PlacemarkInterval(points[i], fromIsoFormat) == Success(ivs[i])
        {
          if i > 0 {
            assert points[i] == PointPlacemarks(rest)[i - 1];
            assert ivs[i] == tail[i - 1];
          }
        }
      } else {
        IntervalsInOrder(rest, fromIsoFormat, ivs);
      }
    }
  }

  /** `ps[i]` is the first point placemark whose extraction fails, and it fails with `e`. */
  ghost predicate FirstFailureAt(ps: seq<Placemark>, i: int, fromIsoFormat: string -> Option<int>, e: Error) {
    && 0 <= i < |ps| && ps[i].hasPoint
    && PlacemarkInterval(ps[i], fromIsoFormat) == Failure(e)
    && (forall j :: 0 <= j < i && ps[j].hasPoint ==> PlacemarkInterval(ps[j], fromIsoFormat).Success?)
  }

  /** A failed extraction reports the error of the first point placemark that fails. */
  lemma {:induction false} IntervalsFirstFailure(ps: seq<Placemark>, fromIsoFormat: string -> Option<int>)
    requires Intervals(ps, fromIsoFormat).Failure?
    ensures exists i :: FirstFailureAt(ps, i, fromIsoFormat, Intervals(ps, fromIsoFormat).error)
  {
    var e := Intervals(ps, fromIsoFormat).error;
    if ps[0].hasPoint && PlacemarkInterval(ps[0], fromIsoFormat).Failure? {
      assert FirstFailureAt(ps, 0, fromIsoFormat, e);
    } else {
      var rest := ps[1..];
      assert Intervals(rest, fromIsoFormat) == Failure(e);
      IntervalsFirstFailure(rest, fromIsoFormat);
      var k :| FirstFailureAt(rest, k, fromIsoFormat, e);
      assert forall j :: 1 <= j <= k ==> ps[j] == rest[j - 1];
      assert FirstFailureAt(ps, k + 1, fromIsoFormat, e);
    }
  }

  /** Placemarks without a `Point` child never yield and never fail. */
  lemma {:induction false} IntervalsSkipNonPoint(ps: seq<Placemark>, p: Placemark, fromIsoFormat: string -> Option<int>)
    requires !p.hasPoint
    ensures Intervals([p] + ps, fromIsoFormat) == Intervals(ps, fromIsoFormat)
  {
    assert ([p] + ps)[1..] == ps;
  }
}

=== FILE: query_encoder.dfy ===
/** The `pb` structured parameter the timeline service expects for a date
    range (`rewrite_daterange_string` in main.py), together with a reader
    for the same grammar that serves as the encoder's inverse. */
module QueryEncoder {
  import opened Errors
  import opened Calendar

  predicate IsDigit(c: char) {
    '0' <= c <= '9'
  }

  predicate AllDigits(s: string) {
    forall i :: 0 <= i < |s| ==> IsDigit(s[i])
  }

  function DigitChar(k: int): (c: char)
    requires 0 <= k < 10
    ensures IsDigit(c) && (c as int) - ('0' as int) == k
  {
    (('0' as int) + k) as char
  }

  /** Python's `str(n)` (and JavaScript's number-to-string) for n >= 0:
      decimal digits, no leading zero except for 0 itself. */
  function DecimalString(n: nat): (s: string)
    ensures |s| >= 1 && AllDigits(s)
    ensures s[0] == '0' ==> n == 0 && |s| == 1
  {
    if n < 10 then [DigitChar(n)] else DecimalString(n / 10) + [DigitChar(n % 10)]
  }

  /** The number a string of decimal digits denotes. */
  function DigitsValue(s: string): nat
    requires AllDigits(s)
  {
    if |s| == 0 then 0
    else 10 * DigitsValue(s[..|s| - 1]) + ((s[|s| - 1] as int) - ('0' as int))
  }

  /** A digit string as `str` writes it: non-empty, no leading zero unless it is "0". */
  predicate Canonical(p: string) {
    |p| >= 1 && AllDigits(p) && (|p| > 1 ==> p[0] != '0')
  }

  lemma {:induction false} DigitsValuePositive(p: string)
    requires |p| >= 1 && AllDigits(p) && p[0] != '0'
    ensures DigitsValue(p) >= 1
  {
    if |p| > 1 {
      var q := p[..|p| - 1];
      assert q[0] == p[0];
      DigitsValuePositive(q);
    }
  }

  /** Reading a canonical digit string and writing the number back gives the same string. */
  lemma {:induction false} DecimalStringOfValue(p: string)
    requires Canonical(p)
    ensures DecimalString(DigitsValue(p)) == p
  {
    var d := (p[|p| - 1] as int) - ('0' as int);
    if |p| > 1 {
      var q := p[..|p| - 1];
      assert q[0] == p[0];
      DigitsValuePositive(q);
      DecimalStringOfValue(q);
      var v := DigitsValue(p);
      assert v / 10 == DigitsValue(q) && v % 10 == d;
      assert p == q + [p[|p| - 1]];
    }
  }

  lemma {:induction false} DecimalStringValue(n: nat)
    ensures DigitsValue(DecimalString(n)) == n
  {
    if n >= 10 {
      DecimalStringValue(n / 10);
      var s := DecimalString(n);
      assert s[..|s| - 1] == DecimalString(n / 10);
    }
  }

  /** Length of the longest prefix of `s` made of digits. */
  function DigitRun(s: string): (k: nat)
    ensures k <= |s|
    ensures AllDigits(s[..k])
    ensures k < |s| ==> !IsDigit(s[k])
  {
    if |s| > 0 && IsDigit(s[0]) then
      var k := 1 + DigitRun(s[1..]);
      assert s[..k] == [s[0]] + s[1..][..k - 1];
      k
    else 0
  }

  lemma {:induction false} DigitRunAppend(p: string, rest: string)
    requires AllDigits(p)
    requires |rest| == 0 || !IsDigit(rest[0])
    ensures DigitRun(p + rest) == |p|
  {
    if |p| > 0 {
      assert (p + rest)[1..] == p[1..] + rest;
      DigitRunAppend(p[1..], rest);
    }
  }

  /** Reads a non-empty maximal run of digits off the front of `s`; a run
      with a leading zero (other than "0" itself) is not a number `str` writes. */
  function ReadNumber(s: string): Option<(nat, string)> {
    var k := DigitRun(s);
    if k == 0 || (k > 1 && s[0] == '0') then None else Some((DigitsValue(s[..k]), s[k..]))
  }

  /** Whatever `ReadNumber` accepts is the number's decimal form followed by a non-digit. */
  lemma ReadNumberCanonical(s: string, n: nat, rest: string)
    requires ReadNumber(s) == Some((n, rest))
    ensures s == DecimalString(n) + rest
    ensures |rest| == 0 || !IsDigit(rest[0])
  {
    var k := DigitRun(s);
    assert s[..k][0] == s[0];
    DecimalStringOfValue(s[..k]);
    assert s == s[..k] + s[k..];
  }

  lemma ReadNumberDecimal(n: nat, rest: string)
    requires |rest| == 0 || !IsDigit(rest[0])
    ensures ReadNumber(DecimalString(n) + rest) == Some((n, rest))
  {
    var p := DecimalString(n);
    DigitRunAppend(p, rest);
    assert (p + rest)[0] == p[0];
    assert (p + rest)[..|p|] == p;
    assert (p + rest)[|p|..] == rest;
    DecimalStringValue(n);
  }

  /** Strips the literal `lit` off the front of `s`. */
  function ReadLiteral(lit: string, s: string): Option<string> {
    if |lit| <= |s| && s[..|lit|] == lit then Some(s[|lit|..]) else None
  }

  lemma ReadLiteralCanonical(lit: string, s: string, rest: string)
    requires ReadLiteral(lit, s) == Some(rest)
    ensures s == lit + rest
  {
    assert s == s[..|lit|] + s[|lit|..];
  }

  lemma ReadLiteralAppend(lit: string, rest: string)
    ensures ReadLiteral(lit, lit + rest) == Some(rest)
  {
    assert (lit + rest)[..|lit|] == lit;
    assert (lit + rest)[|lit|..] == rest;
  }

  /** The six numbers on the wire: both endpoints' year, zero-based month and day. */
  datatype Fields = Fields(fromYear: nat, fromMonth: nat, fromDay: nat, toYear: nat, toMonth: nat, toDay: nat)

  /** One endpoint on the wire, `!1i<year>!2i<month>!3i<day>`, followed by `next`. */
  function EncodeTriple(y: nat, m: nat, d: nat, next: string): string {
    "!1i" + (DecimalString(y) + ("!2i" + (DecimalString(m) + ("!3i" + (DecimalString(d) + next)))))
  }

  /** The grammar `1m8!1m3!1i<y>!2i<m>!3i<d>!2m3!1i<y'>!2i<m'>!3i<d'>`:
      the from-endpoint as block 1, the to-endpoint as block 2. */
  function EncodeFields(f: Fields): string {
    "1m8!1m3" + EncodeTriple(f.fromYear, f.fromMonth, f.fromDay, "!2m3" + EncodeTriple(f.toYear, f.toMonth, f.toDay, ""))
  }

  /** Reads one endpoint off the front of `s`. */
  function DecodeTriple(s: string): Option<(nat, nat, nat, string)> {
    var s :- ReadLiteral("!1i", s);
    var (y, s) :- ReadNumber(s);
    var s :- ReadLiteral("!2i", s);
    var (m, s) :- ReadNumber(s);
    var s :- ReadLiteral("!3i", s);
    var (d, s) :- ReadNumber(s);
    Some((y, m, d, s))
  }

  /** Reads a `pb` value back into its six fields; None when `s` is not in the grammar. */
  function DecodeFields(s: string): Option<Fields> {
    var s :- ReadLiteral("1m8!1m3", s);
    var (fy, fm, fd, s) :- DecodeTriple(s);
    var s :- ReadLiteral("!2m3", s);
    var (ty, tm, td, s) :- DecodeTriple(s);
    if s == [] then Some(Fields(fy, fm, fd, ty, tm, td)) else None
  }

  /** An endpoint is read back exactly, leaving whatever follows it. */
  lemma DecodeEncodeTriple(y: nat, m: nat, d: nat, rest: string)
    requires |rest| == 0 || !IsDigit(rest[0])
    ensures DecodeTriple(EncodeTriple(y, m, d, rest)) == Some((y, m, d, rest))
  {
    var t3 := DecimalString(d) + rest;
    var t2 := "!3i" + t3;
    var t1 := DecimalString(m) + t2;
    var t0 := "!2i" + t1;
    var e := DecimalString(y) + t0;
    ReadLiteralAppend("!1i", e);
    ReadNumberDecimal(y, t0);
    ReadLiteralAppend("!2i", t1);
    ReadNumberDecimal(m, t2);
    ReadLiteralAppend("!3i", t3);
    ReadNumberDecimal(d, rest);
  }

  /** Every field list survives encoding and decoding. */
  lemma DecodeEncodeFields(f: Fields)
    ensures DecodeFields(EncodeFields(f)) == Some(f)
  {
    var to := EncodeTriple(f.toYear, f.toMonth, f.toDay, "");
    var second := "!2m3" + to;
    ReadLiteralAppend("1m8!1m3", EncodeTriple(f.fromYear, f.fromMonth, f.fromDay, second));
    DecodeEncodeTriple(f.fromYear, f.fromMonth, f.fromDay, second);
    ReadLiteralAppend("!2m3", to);
    DecodeEncodeTriple(f.toYear, f.toMonth, f.toDay, "");
  }

  /** The wire fields of a date pair: month made zero-based. */
  function DateFields(from: Date, to: Date): (f: Fields)
    requires Valid(from) && Valid(to)
    ensures 0 <= f.fromMonth <= 11 && 0 <= f.toMonth <= 11
  {
    Fields(from.year, from.month - 1, from.day, to.year, to.month - 1, to.day)
  }

  /** Only the encoder's own output decodes to an endpoint: no padding, no
      alternative spelling. */
  lemma DecodeTripleCanonical(s: string, y: nat, m: nat, d: nat, rest: string)
    requires DecodeTriple(s) == Some((y, m, d, rest))
    ensures s == EncodeTriple(y, m, d, rest)
    ensures |rest| == 0 || !IsDigit(rest[0])
  {
    var s1 := ReadLiteral("!1i", s).value;
    ReadLiteralCanonical("!1i", s, s1);
    var s2 := ReadNumber(s1).value.1;
    ReadNumberCanonical(s1, y, s2);
    var s3 := ReadLiteral("!2i", s2).value;
    ReadLiteralCanonical("!2i", s2, s3);
    var s4 := ReadNumber(s3).value.1;
    ReadNumberCanonical(s3, m, s4);
    var s5 := ReadLiteral("!3i", s4).value;
    ReadLiteralCanonical("!3i", s4, s5);
    ReadNumberCanonical(s5, d, rest);
  }

  lemma DecodeFieldsOnlyEncoded(s: string, f: Fields)
    requires DecodeFields(s) == Some(f)
    ensures s == EncodeFields(f)
  {
    var s1 := ReadLiteral("1m8!1m3", s).value;
    ReadLiteralCanonical("1m8!1m3", s, s1);
    var t := DecodeTriple(s1).value;
    var s2 := ReadLiteral("!2m3", t.3).value;
    var u := DecodeTriple(s2).value;
    assert t.0 == f.fromYear && t.1 == f.fromMonth && t.2 == f.fromDay;
    assert u.0 == f.toYear && u.1 == f.toMonth && u.2 == f.toDay && u.3 == [];
    DecodeTripleCanonical(s1, t.0, t.1, t.2, t.3);
    ReadLiteralCanonical("!2m3", t.3, s2);
    DecodeTripleCanonical(s2, u.0, u.1, u.2, u.3);
  }

  /** `DecodeFields` accepts exactly the encoder's outputs, so the encoding is
      the one and only spelling of a field list. */
  lemma DecodeFieldsCanonical(s: string, f: Fields)
    ensures DecodeFields(s) == Some(f) <==> s == EncodeFields(f)
  {
    if DecodeFields(s) == Some(f) {
      DecodeFieldsOnlyEncoded(s, f);
    }
    if s == EncodeFields(f) {
      DecodeEncodeFields(f);
    }
  }

  /** Zero-padded numbers are not part of the grammar. */
  lemma PaddingRejected()
    ensures ReadNumber("06!") == None
    ensures ReadNumber("0!") == Some((0, "!"))
  {
    assert "06!"[1..] == "6!";
    assert "6!"[1..] == "!";
    assert "0!"[1..] == "!";
    assert DigitRun("06!") == 2;
    assert DigitRun("0!") == 1;
    assert "0!"[..1] == "0";
    assert "0"[..0] == "";
  }

  /** The dates a field list denotes: month made one-based again. */
  function FieldsDates(f: Fields): (Date, Date) {
    (Date(f.fromYear, f.fromMonth + 1, f.fromDay), Date(f.toYear, f.toMonth + 1, f.toDay))
  }

  /** `rewrite_daterange_string(from_date, to_date)`. */
  function RewriteDaterangeString(from: Date, to: Date): (r: string)
    requires Valid(from) && Valid(to)
    ensures DecodeFields(r).Some?
    ensures 0 <= DecodeFields(r).value.fromMonth <= 11 && 0 <= DecodeFields(r).value.toMonth <= 11
    ensures FieldsDates(DecodeFields(r).value) == (from, to)
  {
    var f := DateFields(from, to);
    DecodeEncodeFields(f);
    EncodeFields(f)
  }

  /** The query string is the only spelling of the date pair in the grammar. */
  lemma RewriteDaterangeStringUnique(from: Date, to: Date, s: string)
    requires Valid(from) && Valid(to)
    ensures DecodeFields(s).Some? && FieldsDates(DecodeFields(s).value) == (from, to)
      <==> s == RewriteDaterangeString(from, to)
  {
    var r := RewriteDaterangeString(from, to);
    if DecodeFields(s).Some? && FieldsDates(DecodeFields(s).value) == (from, to) {
      var f := DecodeFields(s).value;
      assert f == DateFields(from, to);
      DecodeFieldsCanonical(s, f);
    }
  }

  /** Different date pairs never share a query string. */
  lemma RewriteDaterangeStringInjective(a: Date, b: Date, c: Date, d: Date)
    requires Valid(a) && Valid(b) && Valid(c) && Valid(d)
    ensures RewriteDaterangeString(a, b) == RewriteDaterangeString(c, d) <==> a == c && b == d
  {
    var r := RewriteDaterangeString(a, b);
    if r == RewriteDaterangeString(c, d) {
      assert FieldsDates(DecodeFields(r).value) == (a, b);
      assert FieldsDates(DecodeFields(r).value) == (c, d);
    }
  }

  const ParamsPrefix := "authuser=0&pb="

  /** The query `get_timeline` sends for `day`: the span from `day` to the next calendar day. */
  function TimelineParams(day: Date): (r: string)
    requires Valid(day)
    ensures |ParamsPrefix| <= |r| && r[..|ParamsPrefix|] == ParamsPrefix
    ensures DecodeFields(r[|ParamsPrefix|..]).Some?
    ensures FieldsDates(DecodeFields(r[|ParamsPrefix|..]).value) == (day, NextDay(day))
  {
    var q := RewriteDaterangeString(day, NextDay(day));
    assert (ParamsPrefix + q)[|ParamsPrefix|..] == q;
    ParamsPrefix + q
  }
}

=== FILE: response_cache.dfy ===
/** The cache and status logic of `make_request` (main.py). The cache
    directory is a map from request identity to stored body; the transport
    is a function from prepared URL to status and body. */
module ResponseCache {
  import opened Errors

  const TimelineUrl := "https://www.google.com/maps/timeline/kml"

  datatype Response = Response(status: int, body: string)

  /** Stored bodies keyed by the prepared URL. The on-disk file name is the
      URL percent-encoded with no safe characters, a one-to-one renaming,
      so keying by the URL itself identifies the same entries. */
  type Cache = map<string, string>

  /** The URL the session prepares for a GET of the timeline with `params`. */
  function PreparedUrl(params: string): string {
    TimelineUrl + "?" + params
  }

  /** The status band `make_request` lets through: it raises on
      `code < 200 or code > 400`, so 400 itself is accepted. */
  predicate Accepted(status: int) {
    !(status < 200 || status > 400)
  }

  /** The edges of the band: 200 and 400 pass, 199 and 401 do not. */
  lemma AcceptedExamples()
    ensures Accepted(200) && Accepted(302) && Accepted(400)
    ensures !Accepted(199) && !Accepted(401) && !Accepted(404) && !Accepted(500)
  {
  }

  /** What a call returns, the cache afterwards, and whether the transport was used. */
  datatype Outcome = Outcome(result: Result<string>, cache: Cache, sent: bool)

  function MakeRequest(params: string, useCache: bool, cache: Cache, send: string -> Response): (o: Outcome)
    // a hit answers from the cache and leaves the transport alone
    ensures useCache && PreparedUrl(params) in cache ==>
      o == Outcome(Success(cache[PreparedUrl(params)]), cache, false)
    // otherwise the transport is used exactly once and its status decides
    ensures o.sent <==> !(useCache && PreparedUrl(params) in cache)
    ensures o.sent ==> (o.result.Success? <==> Accepted(send(PreparedUrl(params)).status))
    ensures o.sent && o.result.Success? ==> o.result.value == send(PreparedUrl(params)).body
    ensures o.sent && o.result.Failure? ==> o.result.error == FetchFailed(send(PreparedUrl(params)).status)
    // a rejected status writes nothing; caching off never writes
    ensures o.result.Failure? || !useCache ==> o.cache == cache
    // write-once: stored entries are never changed, at most the requested key is added
    ensures forall k :: k in cache ==> k in o.cache && o.cache[k] == cache[k]
    ensures o.cache.Keys <= cache.Keys + {PreparedUrl(params)}
    ensures useCache && o.result.Success? ==>
      PreparedUrl(params) in o.cache && o.cache[PreparedUrl(params)] == o.result.value
  {
    var url := PreparedUrl(params);
    if useCache && url in cache then
      Outcome(Success(cache[url]), cache, false)
    else
      var res := send(url);
      if !Accepted(res.status) then
        Outcome(Failure(FetchFailed(res.status)), cache, true)
      else if useCache then
        Outcome(Success(res.body), cache[url := res.body], true)
      else
        Outcome(Success(res.body), cache, true)
  }

  /** After a successful cached call, repeating it is a hit: no send, same
      content, no change to the cache. */
  lemma RepeatIsHit(params: string, cache: Cache, send: string -> Response)
    requires MakeRequest(params, true, cache, send).result.Success?
    ensures var first := MakeRequest(params, true, cache, send);
            var second := MakeRequest(params, true, first.cache, send);
            !second.sent && second.result == first.result && second.cache == first.cache
  {
  }

  /** Every stored body is what the transport answers, with an accepted status, for its URL. */
  ghost predicate Consistent(cache: Cache, send: string -> Response) {
    forall url :: url in cache ==> Accepted(send(url).status) && cache[url] == send(url).body
  }

  /** Against a transport that keeps answering the same way, the cache is
      invisible: a consistent cache gives the same result as no cache, and
      stays consistent. */
  lemma CacheTransparent(params: string, cache: Cache, send: string -> Response)
    requires Consistent(cache, send)
    ensures MakeRequest(params, true, cache, send).result == MakeRequest(params, false, cache, send).result
    ensures Consistent(MakeRequest(params, true, cache, send).cache, send)
  {
  }

  /** With caching off the cache is neither read nor written: whatever it holds, the call behaves the same. */
  lemma CacheOffIgnoresCache(params: string, c1: Cache, c2: Cache, send: string -> Response)
    ensures MakeRequest(params, false, c1, send).result == MakeRequest(params, false, c2, send).result
    ensures MakeRequest(params, false, c1, send).sent && MakeRequest(params, false, c1, send).cache == c1
  {
  }
}

=== FILE: rounding.dfy ===
/** `round_to` (main.py): round down to a whole number of `1/frac` steps,
    returning the rounded and the exact value. Hours are exact reals here. */
module Rounding {

  /** `x` is a whole number of `1/frac` steps. */
  predicate OnGrid(x: real, frac: int)
    requires frac > 0
  {
    (x * (frac as real)).Floor as real == x * (frac as real)
  }

  lemma DivMul(k: int, frac: int)
    requires frac > 0
    ensures (k as real / frac as real) * frac as real == k as real
  {
  }

  /** Scaling by a positive factor keeps order, both ways. */
  lemma ScaleOrder(a: real, b: real, f: real)
    requires f > 0.0
    ensures a <= b <==> a * f <= b * f
    ensures a < b <==> a * f < b * f
  {
    assert (b - a) * f == b * f - a * f;
    if a < b {
      assert (b - a) * f > 0.0;
    } else if b < a {
      assert (a - b) * f > 0.0;
    }
  }

  /** `k / frac`, for `k` the floor of `num * frac`, lies on the grid within one step below `num`. */
  lemma FloorStep(num: real, frac: int)
    requires frac > 0
    ensures var r := (num * (frac as real)).Floor as real / frac as real;
            r <= num < r + 1.0 / frac as real && OnGrid(r, frac)
  {
    var f := frac as real;
    var k := (num * f).Floor;
    var r := k as real / f;
    DivMul(k, frac);
    DivMul(1, frac);
    assert r * f == k as real;
    assert (r + 1.0 / f) * f == r * f + (1.0 / f) * f;
    ScaleOrder(r, num, f);
    ScaleOrder(num, r + 1.0 / f, f);
    assert (k as real).Floor == k;
    assert (r * f).Floor as real == r * f;
  }

  /** `round_to(num, frac)`: `(math.floor(num * frac) / frac, num)`. */
  function RoundTo(num: real, frac: int): (real, real)
    requires frac > 0
  {
    ((num * (frac as real)).Floor as real / frac as real, num)
  }

  /** The exact part is `num` itself; the rounded part is a grid point at
      most one step below it. */
  lemma RoundToBounds(num: real, frac: int)
    requires frac > 0
    ensures RoundTo(num, frac).1 == num
    ensures RoundTo(num, frac).0 <= num < RoundTo(num, frac).0 + 1.0 / frac as real
    ensures OnGrid(RoundTo(num, frac).0, frac)
  {
    FloorStep(num, frac);
  }

  /** The whole number of steps a grid point stands for. */
  function GridIndex(x: real, frac: int): (k: int)
    requires frac > 0 && OnGrid(x, frac)
    ensures k as real == x * (frac as real)
  {
    (x * (frac as real)).Floor
  }

  /** On the grid, a point below `r + 1/frac` is at most `r`. */
  lemma GridGap(x: real, r: real, frac: int)
    requires frac > 0
    requires OnGrid(x, frac) && OnGrid(r, frac)
    requires x < r + 1.0 / frac as real
    ensures x <= r
  {
    var f := frac as real;
    var kx := GridIndex(x, frac);
    var kr := GridIndex(r, frac);
    DivMul(1, frac);
    assert (r + 1.0 / f) * f == r * f + 1.0;
    ScaleOrder(x, r + 1.0 / f, f);
    assert kx < kr + 1;
    ScaleOrder(x, r, f);
  }

  /** The rounded value is the largest grid point not above `num`. */
  lemma RoundToGreatest(num: real, frac: int, x: real)
    requires frac > 0
    requires OnGrid(x, frac) && x <= num
    ensures x <= RoundTo(num, frac).0
  {
    RoundToBounds(num, frac);
    GridGap(x, RoundTo(num, frac).0, frac);
  }

  /** Rounding a rounded value changes nothing. */
  lemma RoundToIdempotent(num: real, frac: int)
    requires frac > 0
    ensures RoundTo(RoundTo(num, frac).0, frac).0 == RoundTo(num, frac).0
  {
    var r := RoundTo(num, frac).0;
    var rr := RoundTo(r, frac).0;
    RoundToBounds(num, frac);
    RoundToBounds(r, frac);
    RoundToGreatest(r, frac, r);
    assert r <= rr <= r;
  }

  /** More hours never round to fewer. */
  lemma RoundToMonotone(a: real, b: real, frac: int)
    requires frac > 0 && a <= b
    ensures RoundTo(a, frac).0 <= RoundTo(b, frac).0
  {
    RoundToBounds(a, frac);
    RoundToBounds(b, frac);
    RoundToGreatest(b, frac, RoundTo(a, frac).0);
  }

  /** Quarter-hour boundaries, and rounding toward minus infinity below zero. */
  lemma QuarterHourExamples()
    ensures RoundTo(6.24, 4).0 == 6.0
    ensures RoundTo(6.26, 4).0 == 6.25
    ensures RoundTo(0.0, 4).0 == 0.0
    ensures RoundTo(8.5, 4).0 == 8.5
    ensures RoundTo(-0.1, 4).0 == -0.25
  {
    assert (6.24 * 4.0).Floor == 24;
    assert (6.26 * 4.0).Floor == 25;
    assert (-0.1 * 4.0).Floor == -1;
  }
}

=== FILE: timestamps.dfy ===
/** `parse_date_str` (main.py): every `Z` becomes an explicit `+00:00`
    offset before the ISO-8601 reader sees the text. */
module Timestamps {
  import opened Errors

  const UtcOffset := "+00:00"

  function CountZ(s: string): nat {
    if |s| == 0 then 0 else CountZ(s[..|s| - 1]) + (if s[|s| - 1] == 'Z' then 1 else 0)
  }

  /** `s.replace("Z", "+00:00")`: all occurrences, not only a trailing one. */
  function NormalizeUtc(s: string): (r: string)
    ensures forall i :: 0 <= i < |r| ==> r[i] != 'Z'
    ensures (forall i :: 0 <= i < |s| ==> s[i] != 'Z') ==> r == s
    ensures |r| == |s| + 5 * CountZ(s)
  {
    if |s| == 0 then []
    else NormalizeUtc(s[..|s| - 1]) + (if s[|s| - 1] == 'Z' then UtcOffset else [s[|s| - 1]])
  }

  /** Replacing piece by piece is replacing the whole. */
  lemma {:induction false} NormalizeUtcAppend(a: string, b: string)
    ensures NormalizeUtc(a + b) == NormalizeUtc(a) + NormalizeUtc(b)
    decreases |b|
  {
    if |b| == 0 {
      assert a + b == a;
    } else {
      var b' := b[..|b| - 1];
      assert (a + b)[..|a + b| - 1] == a + b';
      assert (a + b)[|a + b| - 1] == b[|b| - 1];
      NormalizeUtcAppend(a, b');
    }
  }

  /** The reverse rewrite: every `+00:00` back to `Z`, reading left to right. */
  function DenormalizeUtc(s: string): string
    decreases |s|
  {
    if |s| == 0 then []
    else if |s| >= |UtcOffset| && s[..|UtcOffset|] == UtcOffset then "Z" + DenormalizeUtc(s[|UtcOffset|..])
    else [s[0]] + DenormalizeUtc(s[1..])
  }

  /** The rewrite of the first character followed by the rewrite of the rest. */
  lemma NormalizeUtcCons(c: char, rest: string)
    ensures NormalizeUtc([c] + rest) == (if c == 'Z' then UtcOffset else [c]) + NormalizeUtc(rest)
  {
    NormalizeUtcAppend([c], rest);
    assert NormalizeUtc([c]) == NormalizeUtc([]) + (if c == 'Z' then UtcOffset else [c]);
  }

  /** On text without a `+` of its own the rewrite loses nothing: it can be undone. */
  lemma {:induction false} NormalizeUtcInvertible(s: string)
    requires forall i :: 0 <= i < |s| ==> s[i] != '+'
    ensures DenormalizeUtc(NormalizeUtc(s)) == s
    decreases |s|
  {
    if |s| > 0 {
      var rest := s[1..];
      assert s == [s[0]] + rest;
      NormalizeUtcCons(s[0], rest);
      NormalizeUtcInvertible(rest);
      var tail := NormalizeUtc(rest);
      if s[0] == 'Z' {
        var n := UtcOffset + tail;
        assert n[..|UtcOffset|] == UtcOffset;
        assert n[|UtcOffset|..] == tail;
      } else {
        var n := [s[0]] + tail;
        assert n[0] == s[0] != '+';
        assert n[1..] == tail;
      }
    }
  }

  lemma NormalizeUtcExample()
    ensures NormalizeUtc("2019-11-26T01:35:36.088Z") == "2019-11-26T01:35:36.088+00:00"
  {
    var t := "2019-11-26T01:35:36.088Z";
    var p := t[..|t| - 1];
    assert forall i :: 0 <= i < |p| ==> p[i] == t[i] && t[i] != 'Z';
    assert NormalizeUtc(t) == p + UtcOffset;
  }

  /** `parse_date_str(s)`: the ISO-8601 reader (`datetime.fromisoformat`) is
      supplied by the caller and yields epoch milliseconds, or None when it
      rejects the text. */
  function ParseDateStr(s: string, fromIsoFormat: string -> Option<int>): (r: Option<int>)
    ensures r == fromIsoFormat(NormalizeUtc(s))
    ensures (forall i :: 0 <= i < |s| ==> s[i] != 'Z') ==> r == fromIsoFormat(s)
  {
    fromIsoFormat(NormalizeUtc(s))
  }

  /** The docstring's timestamp reaches the reader with `+00:00` for its `Z`. */
  lemma ParseDateStrExample(fromIsoFormat: string -> Option<int>)
    ensures ParseDateStr("2019-11-26T01:35:36.088Z", fromIsoFormat) == fromIsoFormat("2019-11-26T01:35:36.088+00:00")
  {
    NormalizeUtcExample();
  }
}
